=== FILE: README.md ===
# Password generator: set and template engine in Dafny

This project models the generating core of a small command-line password generator.

- **The alphabet registry** (`config.py`). A table from one-character codes to alphabets: `d` digits, `l` lower case, `u` upper case, `p` the four marks `,.;:`, `x` a Latin-1 range, and so on.
- **The set expander** (`set_generator` in `set/set.py`). It turns a set specification into a pool of candidate characters:
  - `|` picks one side of the first `|`;
  - `^` rebuilds the `d`, `l`, `u` and `p` entries of the registry without the excluded characters;
  - the specification is deduplicated;
  - every known code contributes its alphabet;
  - `\` makes the next character literal.
- **The template interpreter** (`check_template`, its inner `repeat_placeholders` and `handle_custom_set` in `template/template.py`):
  - a first phase expands the first `{n}` placeholder or, failing that, substitutes every `[...]` custom-set block;
  - a literal pass follows, in which a code draws one character, `\` escapes and any other character is dropped.
- **Password assembly** (`generate_password` in `main.py`, lines 20-53). It covers the default mode, the set mode and the template mode, and the order in which they run.

## How the model is built

- **Registry.** The program keeps the registry as a mutable global. Here it is an immutable `map<char, string>`. Every operation that can change it returns the new registry, so an exclusion stays visible to everything that runs after it.
- **Randomness.** Randomness is an explicit input, an `Oracle`:
  - `draw(n)` is the n-th random draw of the run, and a counter `at` says how many draws have been used;
  - `random.choice` between the two sides of a `|` takes one draw (even picks the first side);
  - `random.choice(alphabet)` takes one draw and picks `alphabet[draw % |alphabet|]`;
  - `random.choices(pool, k)` takes one draw per character.
- **Set iteration order.** The order in which `set(s)` is iterated is the oracle's `order(s)`. The only thing assumed about it is that it lists each distinct character of `s` once (`Chance.Valid`).
- **Errors.** Sampling from an empty pool or an empty alphabet raises an `IndexError` in the program. Here it is the error result `Err(EmptyPool)`.
- **The two regular expressions** are written out as scanners in `TemplateScan`:
  - `\[(.*?)\]` is the shortest bracketed run; it does not cross a newline and the scan resumes after each `]`;
  - `\{(\d+)\}` is restricted to ASCII digits.

Behaviour of the code that the model keeps, although it is easy to read otherwise:

- **Empty exclusion.** An exclusion rebuilds the base entries from the pristine sets each time. So exclusions do not accumulate, and an empty exclusion (`spec^`) restores the base sets (`SetExpander.EmptyExclusionRestores`).
- **Second-phase template.** After the first phase, the template of the literal pass is made of the characters of the generated prefix that do *not* occur in the template (`template/template.py:59,63`). It is not the template with those characters removed. As a result:
  - `u{4}d{3}\-l{2}` yields exactly `uuuu` (`Template.RepeatExample`), not the `DHRF345-st` shape the help text at `main.py:66` shows;
  - a repeat over blocks such as `[dl]{5}` may be followed by extra characters from the literal pass.
- **Code `x`.** It skips U+00AD, as `config.py:25` does.
- **Set step with a template.** In `generate_password` the set step runs before the template step even when a template is given. Its draws, its exclusion and its failure therefore happen before the template overrides its result (`Generator.TemplateDecides`).
- **Literal pass can fail.** The literal pass is not free of errors: a code whose alphabet an exclusion has emptied (for example `p` after `^,.;:`) raises. The model has this as an error result.

## Model

| member | source | states |
|---|---|---|
| Config.Initial | config.py:6-26 | The initial registry has exactly the nineteen codes, and `d`, `l`, `u`, `p` are the digits, lower case, upper case and `,.;:` |
| Config.InitialCodes | config.py:6-26 | The registry has exactly 19 keys |
| Config.InitialNonEmpty | config.py:6-26 | Every initial alphabet is non-empty |
| Config.InitialOperatorsFree | config.py:6-26 | Every code is an ASCII letter; no operator (backslash, bar, caret, brackets, braces) is a code, so they never resolve to an alphabet |
| Config.LatinRange | config.py:25 | Code `x` has 94 characters: U+00A1..U+00AC, then U+00AE..U+00FF, and never U+00AD |
| Config.HexDoubled | config.py:14-15 | `h` and `H` are the digits followed by a-f (A-F) twice, so those letters occur twice |
| Config.Composites | config.py:11-13 | `a` = `l`+`d`, `A` = `u`+`l`+`d`, `U` = `u`+`d` |
| Config.PrintableComposite | config.py:23-24 | `S` is digits, letters, the whole of code `s` and the six whitespace characters |
| Chance.Choices | template/template.py:46 | `random.choices` fails exactly when a positive count meets an empty pool; otherwise it yields max(k,0) characters, all from the pool |
| Chance.ChoicesFollowDraws | template/template.py:18 | The i-th character sampled is the pool character the (at+i)-th draw selects |
| Chance.ChoicesReachesAll | main.py:47 | Every string of pool characters is the outcome of some sequence of draws (sampling rules nothing out) |
| Chance.Pick | template/template.py:77 | `random.choice` on a non-empty alphabet yields a character of it |
| Chance.PickFirst | set/set.py:26 | Definition only (no contract of its own): `random.choice` between the two sides of a bar is one draw, an even draw picking the first side; its property is stated by `Chance.BothSidesReachable` |
| Chance.BothSidesReachable | set/set.py:26 | Either side of a bar is chosen by some draws |
| Chance.ValidOracleExists | set/set.py:43 | An iteration order that lists every set's characters once exists (order of first occurrence) |
| Chance.ListingOfOne | set/set.py:43 | A one-character set iterates as that character alone |
| SetExpander.SplitFirst | set/set.py:25 | `split(sep, 1)` returns the text before the first separator and everything after it, which rejoin to the input |
| SetExpander.SplitFirstUnique | set/set.py:31 | The split of `before + sep + after` with `sep` not in `before` is exactly `(before, after)` |
| SetExpander.Without | set/set.py:33-36 | A character survives the filter exactly when it is in the base set and not excluded, and it survives as often as it occurs there |
| SetExpander.WithoutNothing | set/set.py:33-36 | Excluding nothing that occurs in the base set leaves it as it is |
| SetExpander.WithoutAppend | template/template.py:59 | The filter keeps order: it works piecewise on a concatenation |
| SetExpander.Exclude | set/set.py:30-36 | After `^excluded`: `d`, `l`, `u`, `p` hold exactly their pristine characters minus the excluded ones, in their order and multiplicity, and every other entry is unchanged |
| SetExpander.ExpandRegistry | set/set.py:24-36 | The registry `set_generator` leaves is the one given, with the exclusion of the chosen side applied when that side holds `^` |
| SetExpander.ExcludedTwice | set/set.py:16-36 | Of two optional exclusions in a row, only the later one that exists decides the registry |
| SetExpander.ExclusionsDoNotAccumulate | set/set.py:16-36 | Two exclusions in a row leave the same registry as the second alone |
| SetExpander.EmptyExclusionRestores | set/set.py:16-36 | An empty exclusion after any exclusion restores a registry whose base entries were pristine |
| SetExpander.InitialPristine | config.py:7-10 | The initial `d`, `l`, `u`, `p` are the pristine sets an exclusion rebuilds from |
| SetExpander.Walk | set/set.py:45-57 | The loop over the distinct spec characters adds only characters of the walked text or of the alphabets of its codes |
| SetExpander.WalkPlain | set/set.py:45-57 | Without a backslash the walk is the concatenation of the code alphabets, in iteration order; non-codes contribute nothing |
| SetExpander.WalkEscaped | set/set.py:45-57 | With one backslash, the character after it is added once, as itself and instead of its alphabet |
| SetExpander.WalkMembers | set/set.py:45-57 | Every pool character is in the alphabet of a code of the walked characters, or directly follows `\` in iteration order |
| SetExpander.Alternative | set/set.py:24-27 | With an alternation bar one draw is used and the chosen side holds only characters of the spec; without one nothing is drawn |
| SetExpander.Exclusion | set/set.py:30-37 | Without `^` the spec and registry pass unchanged; with one only the base entries may change |
| SetExpander.Body | set/set.py:30-57 | Exclusion, dedup and walk use no draws and change the registry only through `^` |
| SetExpander.Expand | set/set.py:7-62 | `set_generator` uses one draw exactly when the spec has an alternation bar, and leaves the registry unchanged without `^`; only `d`, `l`, `u`, `p` can change |
| SetExpander.PoolMembers | set/set.py:43-62 | Every pool character is in the (returned) alphabet of a code of the spec, or is a spec character |
| SetExpander.ListingsArePermutations | set/set.py:43 | Two iteration orders of the same set are permutations of each other |
| SetExpander.AlphabetsPermutation | set/set.py:47-57 | Permuting the codes permutes the concatenated alphabets |
| SetExpander.ExpandPlain | set/set.py:43-57 | A spec without bar, caret or backslash expands, up to order, to each distinct code's alphabet once, in order of first occurrence; registry and draws untouched |
| SetExpander.SameCharactersSamePool | set/set.py:43-57 | The pool of a plain spec depends only on which characters it contains, not on repetitions or iteration order |
| SetExpander.AlternationChoosesSide | set/set.py:24-27 | With a bar the result is the expansion of exactly the side before or after the first bar, as the draw says |
| SetExpander.ExclusionExpandsKept | set/set.py:30-37 | With `^` only the text before it is expanded, against the registry with the exclusion applied |
| SetExpander.EscapeAtMostOnce | set/set.py:43-55 | Dedup leaves one backslash, so exactly the character after it in iteration order is taken literally, once |
| SetExpander.SingleCode | set/set.py:47-57 | A single code expands to exactly its alphabet, registry and draws untouched |
| SetExpander.ExclusionPersists | set/set.py:33-57 | After `kept^excluded`, a later expansion of a base code yields exactly its pristine set minus the excluded characters |
| TemplateScan.Stop | template/template.py:34 | The first `]` or newline at or after a position, with none in between |
| TemplateScan.FindBracket | template/template.py:34 | The block found is the leftmost one; none is found exactly when none exists |
| TemplateScan.Parse | template/template.py:41-61 | The segments rejoin to the template; no block's inner text holds `]` or a newline; no match of the pattern opens inside a text segment, so every match is a block; the joined block texts are `''.join(re.findall(...))` |
| TemplateScan.FindAll | template/template.py:44 | Definition only (no contract of its own): `re.findall` of the custom-set pattern, the inner texts of the successive leftmost matches with the search resuming after each; `TemplateScan.Parse` states that the joined block texts equal its join |
| TemplateScan.Inners | template/template.py:44 | A character is in the joined block texts exactly when it is in the inner text of some block |
| TemplateScan.HasBlock | template/template.py:60 | `re.findall` of the custom-set pattern is non-empty exactly when some `[` is closed by a `]` with no newline between |
| TemplateScan.ParseFindsBlocks | template/template.py:60-61 | Parsing yields a block exactly when the pattern matches; otherwise the template is one text segment |
| TemplateScan.UnparseLength | template/template.py:61 | Each block accounts for its inner text plus two brackets |
| TemplateScan.DigitsEnd | template/template.py:35 | The end of the run of ASCII digits at a position |
| TemplateScan.FindRepeat | template/template.py:35 | The placeholder found is the leftmost one; none is found exactly when none exists |
| TemplateScan.DecimalValue | template/template.py:40 | `int()` of a digit string is zero exactly when every digit is `0` |
| TemplateScan.DecimalRoundTrip | template/template.py:40 | `int()` of the decimal numeral of n is n |
| TemplateScan.LeadingZero | template/template.py:40 | A leading zero does not change the count (`{007}` is seven) |
| Template.LiteralPass | template/template.py:65-80 | Fails exactly when a reached code has an empty alphabet; otherwise each slot (escaped literal or code) gets one allowed character, one draw per code, registry unchanged |
| Template.PlainSlots | template/template.py:67-80 | Without a backslash, the literal pass draws once per known code, in order, and drops all else |
| Template.PlainTemplate | template/template.py:56-80 | A template without placeholder, block or backslash yields one character per known code from its alphabet, failing exactly when one alphabet is empty |
| Template.LiteralTemplate | template/template.py:56-80 | A template without placeholder or block is read by the literal pass alone, from its first character |
| Template.RepeatPhase | template/template.py:38-53 | With a block anywhere: n characters from the pool of all block contents joined, failing exactly when n > 0 and that pool is empty, and leaving the registry and draws that expansion left (an exclusion inside a block persists); without one: the previous character n times, nothing else touched |
| Template.Previous | template/template.py:49 | The repeated character is always a character of the template (index -1 wraps to the last one) |
| Template.Fill | template/template.py:8-19 | Text is copied; a block yields as many characters as its inner text from its pool, failing exactly when that text is non-empty and the pool empty, and passes on the registry the expansion left and one draw per character after it |
| Template.Substitute | template/template.py:61 | The substitution is the skeleton of the template with literal positions kept; it uses one draw per block character plus one per block with `\|`; it passes the registry from block to block, so it leaves the registry rebuilt by the last exclusion among the blocks; it can only fail when some block is non-empty |
| Template.FillRegistry | template/template.py:8-19 | A filled block leaves the registry its own exclusion rebuilt, and uses its own draws |
| Template.RegistryStep | template/template.py:61 | The registry after the first block and then the rest is the one of the last exclusion among all blocks |
| Template.BlocksRegistryReachesLiteralPass | template/template.py:61-80 | With blocks and no placeholder, the literal pass runs on the registry the last block exclusion rebuilt, from the draw after all block draws |
| Template.ExclusionEmptiesPunct | template/template.py:61 | After the block `[l^,.;:]`, the registry passed on maps code `p` to nothing |
| Template.PunctEmptied | set/set.py:30-36 | Excluding `,.;:` empties `p` |
| Template.Finish | template/template.py:58-80 | The first-phase output is a prefix of the password; the rest fills, one allowed character per slot, the slots of the produced characters that are not in the template, with one draw per code; it fails exactly when one of those codes has an empty alphabet |
| Template.CheckTemplate | template/template.py:22-81 | Only the base entries of the registry can change |
| Template.WithoutAll | template/template.py:59 | When every produced character occurs in the template, the literal pass gets nothing |
| Template.RepeatCopies | template/template.py:49-59 | A placeholder without blocks yields exactly the previous character repeated, the rest of the template ignored |
| Template.RepeatDrawsFromBlocks | template/template.py:41-58 | With a placeholder and blocks, the first n characters come from the joined block pool; an empty pool with n > 0 fails |
| Template.BlocksSubstituted | template/template.py:60-62 | Blocks without placeholder: the password starts with the skeleton, literal positions kept, at least two characters per block shorter than the template |
| Template.SubstituteFromBlocks | template/template.py:15-18 | Without exclusions in blocks, the substitution keeps the registry, and every character put in place of a block is a character of that same block or of the alphabet of one of its codes |
| Template.BlocksFromPools | template/template.py:60-62 | The same for the whole password: each block's positions in the skeleton come from that block's own pool, registry kept |
| Template.RepeatExample | template/template.py:56-59 | `u{4}d{3}\-l{2}` yields exactly `uuuu` |
| Template.RepeatExampleScan | template/template.py:40-49 | That template's first placeholder is `{4}` after `u`, and it has no block |
| Template.LeadingPlaceholder | template/template.py:49 | A placeholder at index 0 repeats the last character: `{3}x` is `xxx` |
| Template.EscapeExample | template/template.py:65-77 | `u\-l` is an upper-case letter, `-`, a lower-case letter |
| Generator.DefaultAlphabetSize | main.py:39 | The default alphabet has 94 characters |
| Generator.SetStep | main.py:45-47 | The set step changes only the base entries of the registry |
| Generator.GeneratePassword | main.py:20-53 | Only the base entries of the registry can change |
| Generator.Run | main.py:36-53 | Once the length is settled, only the base entries of the registry can change |
| Generator.LengthDefaultsToNine | main.py:32-34 | A missing length behaves as 9 |
| Generator.DefaultMode | main.py:37-42 | Without set and template: never fails, max(length,0) characters of letters, digits and punctuation, registry unchanged |
| Generator.SetMode | main.py:45-47 | A non-empty set without template fails exactly when a positive length meets an empty pool; otherwise Count(length) pool characters |
| Generator.TemplateDecides | main.py:45-51 | A non-empty template overrides the set result; the set step's failure, registry and draws come first |
| Generator.EmptyInputs | main.py:30-53 | Given but empty set and template yield `""` with nothing used |

## Left out

- Logging (every `logging.*` call and `loggin/setup_loggin.py`) has no effect on the result. The "undefined character" warning is the silent drop of the character.
- `main()` is not modelled because it is command-line plumbing with no effect on how a password is built. That covers argument parsing, option conflicts, exit codes 1, 2 and 157, file reading, the count loop and printing.
- Real randomness is not modelled. Python's `random.choices` picks with `floor(random() * n)` and `random.choice` with `Random._randbelow(n)`; here every pick is an arbitrary natural number reduced modulo the pool size. No claim is made about uniformity or branch frequency.
- Python's set hashing is not modelled. The iteration order is an arbitrary listing supplied by the oracle.
- The regular-expression engine is not modelled; the two patterns are hand-written scanners. Unicode digits, which Python's `\d` also accepts in `{n}`, are left out: only ASCII digits are modelled.
- The global mutable registry and its persistence across separate runs are represented by returning the new registry. Chaining calls is up to the caller.
- Template.Substitute: the error case is stated one way only (failure implies a non-empty block), not the exact pool condition, because that condition depends on the registries left by earlier blocks. That each block's positions come from that block's own pool is stated by Template.SubstituteFromBlocks, for blocks without exclusions.
- Template.SubstituteFromBlocks: only for blocks without `^`, because a block after an exclusion draws from the changed registry.
- Template.RepeatDrawsFromBlocks: the failure is stated one way only, because the literal pass that follows can fail as well.
- Template.BlocksSubstituted: it states the shape of a successful run only; failure is left to `Template.Substitute` and `Template.Finish`, and where the block positions come from to `Template.BlocksFromPools`.
- Template.CheckTemplate: its own contract is the registry frame only. Its behaviour per template shape is stated by lemmas: `Template.LiteralTemplate` (no placeholder, no block: the literal pass and its slot contract), `Template.PlainTemplate`, `Template.RepeatCopies`, `Template.RepeatDrawsFromBlocks`, `Template.BlocksSubstituted` and `Template.BlocksFromPools`.
- SetExpander.PoolMembers: it says a literal pool character is a character of the spec, not where it sits. `SetExpander.WalkMembers` states the position (directly after `\` in iteration order).
- Generator.GeneratePassword: the length is an unbounded integer, since Python integers are unbounded too.
- Template.BlocksFromPools: block positions are tied to their own block's pool only when no block holds `^`. With an exclusion, a later block sees a changed registry, and the alphabets involved are then those of the registry at that block.

=== FILE: chance.dfy ===
/**
  Randomness as an explicit input. The program calls random.choice and
  random.choices and iterates Python sets, whose order is fixed by string
  hashing. An Oracle supplies all of it: `draw(n)` is the n-th random draw of
  a run and `order(s)` is the order in which `set(s)` is iterated. A counter
  `at` says how many draws have been used so far.
 */
module Chance {
  import opened Outcomes

  datatype Oracle = Oracle(draw: nat -> nat, order: string -> string)

  /** No character occurs twice in w. */
  ghost predicate Distinct(w: string)
  {
    forall i, j :: 0 <= i < j < |w| ==> w[i] != w[j]
  }

  /** w lists each distinct character of s exactly once, in some order. */
  ghost predicate IsListing(w: string, s: string)
  {
    Distinct(w) && forall c :: c in w <==> c in s
  }

  /** The iteration order of every set is a listing of its elements. */
  ghost predicate Valid(o: Oracle)
  {
    forall s :: IsListing(o.order(s), s)
  }

  /** The number of draws random.choices makes for k: a negative k draws nothing. */
  function Count(k: int): (n: nat)
    ensures k >= 0 ==> n == k
    ensures k < 0 ==> n == 0
  {
    if k < 0 then 0 else k
  }

  /** random.choice([first, second]) at draw `at`: true picks `first`. */
  function PickFirst(o: Oracle, at: nat): bool
  {
    o.draw(at) % 2 == 0
  }

  /** Either side of a '|' can be chosen: some draws pick the first, others the second. */
  lemma BothSidesReachable(o: Oracle, at: nat)
    ensures exists d: nat -> nat :: PickFirst(Oracle(d, o.order), at)
    ensures exists d: nat -> nat :: !PickFirst(Oracle(d, o.order), at)
  {
    var even: nat -> nat := n => 0;
    var odd: nat -> nat := n => 1;
    assert PickFirst(Oracle(even, o.order), at);
    assert !PickFirst(Oracle(odd, o.order), at);
  }

  /** random.choice(pool) at draw `at`. */
  function Pick(pool: string, o: Oracle, at: nat): (c: char)
    requires |pool| > 0
    ensures c in pool
  {
    pool[o.draw(at) % |pool|]
  }

  /**
    random.choices(pool, k=k) starting at draw `at`: Count(k) independent
    draws. It fails exactly when it has to draw from an empty pool.
   */
  function Choices(pool: string, k: int, o: Oracle, at: nat): (r: Result<string>)
    ensures r.Err? <==> k > 0 && |pool| == 0
    ensures r.Ok? ==> |r.value| == Count(k)
    ensures r.Ok? ==> forall c :: c in r.value ==> c in pool
    decreases k
  {
    if k <= 0 then Ok("")
    else if |pool| == 0 then Err(EmptyPool)
    else
      Ok([Pick(pool, o, at)] + Choices(pool, k - 1, o, at + 1).value)
  }

  /** The i-th character Choices yields is the pool character the (at + i)-th draw selects. */
  lemma {:induction false} ChoicesFollowDraws(pool: string, k: nat, o: Oracle, at: nat)
    requires |pool| > 0
    ensures Choices(pool, k, o, at).Ok?
    ensures forall i :: 0 <= i < k ==> Choices(pool, k, o, at).value[i] == pool[o.draw(at + i) % |pool|]
    decreases k
  {
    if k > 0 {
      ChoicesFollowDraws(pool, k - 1, o, at + 1);
      var rest := Choices(pool, k - 1, o, at + 1).value;
      assert Choices(pool, k, o, at).value == [Pick(pool, o, at)] + rest;
      forall i | 1 <= i < k
        ensures Choices(pool, k, o, at).value[i] == pool[o.draw(at + i) % |pool|]
      {
        assert Choices(pool, k, o, at).value[i] == rest[i - 1];
      }
    }
  }

  /** The position of the first occurrence of c in s (0 when there is none). */
  function IndexOf(s: string, c: char): (i: nat)
    ensures c in s ==> i < |s| && s[i] == c
  {
    if |s| == 0 || s[0] == c then 0 else 1 + IndexOf(s[1..], c)
  }

  /** The draw that makes choices from `at` on pick the characters of target from pool. */
  function Steer(pool: string, target: string, at: nat, n: nat): nat
  {
    if at <= n < at + |target| then IndexOf(pool, target[n - at]) else 0
  }

  /**
    Choices loses nothing: every string of pool characters is the outcome of
    some sequence of draws, whatever the set order.
   */
  lemma ChoicesReachesAll(pool: string, target: string, o: Oracle, at: nat)
    requires forall c :: c in target ==> c in pool
    ensures exists d: nat -> nat :: Choices(pool, |target|, Oracle(d, o.order), at) == Ok(target)
  {
    var d: nat -> nat := n => Steer(pool, target, at, n);
    var o' := Oracle(d, o.order);
    if |target| > 0 {
      SteerPicks(pool, target, at, 0);
      ChoicesFollowDraws(pool, |target|, o', at);
      var r := Choices(pool, |target|, o', at).value;
      forall i | 0 <= i < |target|
        ensures r[i] == target[i]
      {
        SteerPicks(pool, target, at, i);
        assert o'.draw(at + i) == Steer(pool, target, at, at + i);
      }
      assert r == target;
    }
    assert Choices(pool, |target|, o', at) == Ok(target);
  }

  /** Steering selects the wanted character at each position. */
  lemma SteerPicks(pool: string, target: string, at: nat, i: nat)
    requires forall c :: c in target ==> c in pool
    requires i < |target|
    ensures |pool| > 0 && pool[Steer(pool, target, at, at + i) % |pool|] == target[i]
  {
    assert target[i] in pool;
    var j := IndexOf(pool, target[i]);
    assert Steer(pool, target, at, at + i) == j;
    assert j < |pool| && pool[j] == target[i];
    assert j % |pool| == j;
  }

  /** The first occurrence of each character of s, in order of appearance. */
  function FirstOccurrences(s: string): (w: string)
    ensures IsListing(w, s)
  {
    if |s| == 0 then ""
    else
      var rest := FirstOccurrences(s[..|s| - 1]);
      assert forall c :: c in s <==> c in s[..|s| - 1] || c == s[|s| - 1];
      if s[|s| - 1] in rest then rest else rest + [s[|s| - 1]]
  }

  /** Valid oracles exist: iterating every set in order of first occurrence is one. */
  lemma ValidOracleExists(d: nat -> nat)
    ensures Valid(Oracle(d, FirstOccurrences))
  {
  }

  /** A listing of a one-character string is that character alone. */
  lemma {:induction false} ListingOfOne(w: string, c: char)
    requires IsListing(w, [c])
    ensures w == [c]
  {
    assert c in w;
    assert forall i :: 0 <= i < |w| ==> w[i] in [c];
    if |w| > 1 {
      DistinctPair(w);
      assert false;
    }
  }

  /** The first two characters of a string without repetitions differ. */
  lemma DistinctPair(w: string)
    ensures Distinct(w) && |w| > 1 ==> w[0] != w[1]
  {
  }
}

=== FILE: config.dfy ===
/**
  The alphabet registry: a fixed table from single-character codes to the
  strings of characters a code stands for. The program keeps it as a mutable
  global; here it is an immutable map value that every operation receives and,
  when it changes it, returns.
 */
module Config {

  /** A registry maps a code character to its alphabet. */
  type Registry = map<char, string>

  const Digits: string := "0123456789"
  const Lower: string := "abcdefghijklmnopqrstuvwxyz"
  const Upper: string := "ABCDEFGHIJKLMNOPQRSTUVWXYZ"

  /** The small punctuation set behind code 'p' (not the full punctuation set). */
  const Punct: string := ",.;:"

  /** The full ASCII punctuation set, in the order of Python's string.punctuation. */
  const Punctuation: string := "!\"#$%&'()*+,-./:;<=>?@[\\]^_`{|}~"

  /** Space, tab, newline, carriage return, vertical tab, form feed. */
  const Whitespace: string := " \t\n\r\U{B}\U{C}"

  /** Python's string.printable: digits, letters, punctuation, whitespace. */
  const Printable: string := Digits + Lower + Upper + Punctuation + Whitespace

  /** Python's string.hexdigits, lowered and uppered: the letters a-f occur twice. */
  const HexLower: string := "0123456789abcdefabcdef"
  const HexUpper: string := "0123456789ABCDEFABCDEF"

  /** U+00A1 .. U+00AC followed by U+00AE .. U+00FF: U+00AD (soft hyphen) is skipped. */
  const Latin: string := CharRange(0xA1, 0xAD) + CharRange(0xAE, 0x100)

  /** The characters with code points lo .. hi-1, in ascending order. */
  function CharRange(lo: nat, hi: nat): (r: string)
    requires lo <= hi <= 0xD800
    ensures |r| == hi - lo
    ensures forall i :: 0 <= i < |r| ==> r[i] as int == lo + i
    decreases hi - lo
  {
    if lo == hi then "" else [lo as char] + CharRange(lo + 1, hi)
  }

  /** The codes of the initial registry, upper-case ones first. */
  const Codes: set<char> :=
    {'A', 'C', 'H', 'S', 'U', 'V', 'Z', 'a', 'b', 'c', 'd', 'h', 'l', 'p', 's', 'u', 'v', 'x', 'z'}

  /** The characters with a meaning of their own in set specs and templates. */
  const Operators: set<char> := {'\\', '|', '^', '[', ']', '{', '}'}

  /** The alphabet a code of the initial registry stands for. */
  function InitialAlphabet(code: char): string
    requires code in Codes
  {
    match code
    case 'd' => Digits
    case 'l' => Lower
    case 'u' => Upper
    case 'p' => Punct
    case 'a' => Lower + Digits
    case 'A' => Upper + Lower + Digits
    case 'U' => Upper + Digits
    case 'h' => HexLower
    case 'H' => HexUpper
    case 'v' => "aeiou"
    case 'V' => "AEIOUaeiou"
    case 'b' => "(){}[]<>"
    case 'Z' => "AEIOU"
    case 'c' => "bcdfghjklmnpqrstvwxyz"
    case 'C' => "bcdfghjklmnpqrstvwxyzBCDFGHJKLMNPQRSTVWXY"
    case 'z' => "BCDFGHJKLMNPQRSTVWXYZ"
    case 'S' => Printable
    case 's' => Punctuation
    case 'x' => Latin
  }

  /** The registry as it stands at process start. */
  function Initial(): (r: Registry)
    ensures r.Keys == Codes
    ensures r['d'] == Digits && r['l'] == Lower && r['u'] == Upper && r['p'] == Punct
  {
    map code | code in Codes :: InitialAlphabet(code)
  }

  /** No operator character is a code, so none of them ever resolves to an alphabet. */
  predicate OperatorsFree(reg: Registry)
  {
    forall c :: c in Operators ==> c !in reg
  }

  /** Every code is an ASCII letter, and no operator is one. */
  lemma InitialOperatorsFree()
    ensures forall c :: c in Initial() ==> 'A' <= c <= 'Z' || 'a' <= c <= 'z'
    ensures OperatorsFree(Initial())
  {
    assert forall c :: c in Codes ==> 'A' <= c <= 'Z' || 'a' <= c <= 'z';
    assert forall c :: c in Operators ==> !('A' <= c <= 'Z' || 'a' <= c <= 'z');
  }

  /** The initial registry has exactly nineteen codes. */
  lemma InitialCodes()
    ensures |Initial().Keys| == 19
  {
    var upper := {'A', 'C', 'H', 'S', 'U', 'V', 'Z'};
    var lower := {'a', 'b', 'c', 'd', 'h', 'l', 'p', 's', 'u', 'v', 'x', 'z'};
    assert |upper| == 7 && |lower| == 12;
    assert forall c :: c in upper ==> c <= 'Z';
    assert forall c :: c in lower ==> c >= 'a';
    assert upper * lower == {};
    assert Codes == upper + lower;
  }

  /** Every alphabet of the initial registry is non-empty. */
  lemma InitialNonEmpty()
    ensures forall k :: k in Initial() ==> |Initial()[k]| > 0
  {
  }

  /** Code 'x' is 94 characters: U+00A1..U+00AC then U+00AE..U+00FF. */
  lemma LatinRange()
    ensures |Initial()['x']| == 94
    ensures forall i :: 0 <= i < 12 ==> Initial()['x'][i] as int == 0xA1 + i
    ensures forall i :: 12 <= i < 94 ==> Initial()['x'][i] as int == 0xAE + (i - 12)
    ensures 0xAD as char !in Initial()['x']
  {
    var x := Initial()['x'];
    forall i | 0 <= i < |x|
      ensures x[i] != 0xAD as char
    {
      if i < 12 {
        assert x[i] as int == 0xA1 + i;
      } else {
        assert x[i] as int == 0xAE + (i - 12);
      }
    }
  }

  /** The hex codes repeat the letters a-f (resp. A-F), so those letters are drawn twice as often. */
  lemma HexDoubled()
    ensures |Initial()['h']| == 22 && |Initial()['H']| == 22
    ensures Initial()['h'][..10] == Digits && Initial()['H'][..10] == Digits
    ensures Initial()['h'][10..16] == Initial()['h'][16..] == "abcdef"
    ensures Initial()['H'][10..16] == Initial()['H'][16..] == "ABCDEF"
  {
    assert Initial()['h'] == HexLower;
    assert Initial()['H'] == HexUpper;
    HexLetters();
  }

  /** The facts of HexDoubled on the constants themselves, proved apart to keep that proof small. */
  lemma HexLetters()
    ensures |HexLower| == 22 && |HexUpper| == 22
    ensures HexLower[..10] == Digits && HexUpper[..10] == Digits
    ensures HexLower[10..16] == HexLower[16..] == "abcdef"
    ensures HexUpper[10..16] == HexUpper[16..] == "ABCDEF"
  {
  }

  /** The letter-and-digit codes are concatenations of the base alphabets. */
  lemma Composites()
    ensures Initial()['a'] == Initial()['l'] + Initial()['d']
    ensures Initial()['A'] == Initial()['u'] + Initial()['l'] + Initial()['d']
    ensures Initial()['U'] == Initial()['u'] + Initial()['d']
  {
    InitialAt('l');
    InitialAt('d');
    InitialAt('u');
    InitialAt('a');
    InitialAt('A');
    InitialAt('U');
    assert InitialAlphabet('a') == Lower + Digits;
    assert InitialAlphabet('A') == Upper + Lower + Digits;
    assert InitialAlphabet('U') == Upper + Digits;
  }

  /** Code 'S' is every printable character: digits, letters, code 's' (all punctuation) and whitespace. */
  lemma PrintableComposite()
    ensures Initial()['S'] == Digits + Lower + Upper + Initial()['s'] + Whitespace
  {
    InitialAt('S');
    InitialAt('s');
    assert InitialAlphabet('S') == Printable;
    assert InitialAlphabet('s') == Punctuation;
  }

  lemma InitialAt(code: char)
    requires code in Codes
    ensures Initial()[code] == InitialAlphabet(code)
  {
  }
}

=== FILE: generator.dfy ===
/**
  generate_password: the three ways a password is made. With neither a
  character set nor a template, length characters are drawn from letters,
  digits and punctuation. A non-empty character set is expanded and length
  characters are drawn from its pool. A non-empty template then replaces
  whatever the set produced; the set step still runs first, so its draws,
  its exclusions and its failure happen before the template is read.
 */
module Generator {
  import opened Config
  import opened Outcomes
  import opened Chance
  import opened SetExpander
  import opened Template

  /** Python's ascii_letters + digits + punctuation. */
  const DefaultAlphabet: string := Lower + Upper + Digits + Punctuation

  /** The length used when none is given. */
  const DefaultLength: int := 9

  /** The default alphabet has 94 characters: letters, digits and the 32 punctuation marks. */
  lemma DefaultAlphabetSize()
    ensures |DefaultAlphabet| == 94
  {
  }

  /**
    The character-set step: length characters drawn from the pool of a
    non-empty set, with the registry and draws the expansion leaves; nothing
    at all when the set is absent or empty.
   */
  function SetStep(charSet: Option<string>, length: int, reg: Registry, o: Oracle, at: nat): (r: Result<Produced>)
    requires Valid(o)
    ensures r.Ok? ==> OnlyBaseChanged(reg, r.value.reg)
  {
    if charSet.Some? && |charSet.value| > 0 then
      var pool := Expand(charSet.value, reg, o, at);
      var text :- Choices(pool.text, length, o, pool.at);
      Ok(Produced(text, pool.reg, pool.at + Count(length)))
    else Ok(Produced("", reg, at))
  }

  /**
    generate_password. `length`, `template` and `charSet` are None when not
    given. The result carries the registry the run leaves behind (exclusions
    persist) and the number of draws used.
   */
  function GeneratePassword(length: Option<int>, template: Option<string>, charSet: Option<string>,
                            reg: Registry, o: Oracle, at: nat): (r: Result<Produced>)
    requires Valid(o)
    ensures r.Ok? ==> OnlyBaseChanged(reg, r.value.reg)
  {
    Run(if length.None? then DefaultLength else length.value, template, charSet, reg, o, at)
  }

  /** generate_password once the length is settled. */
  function Run(n: int, template: Option<string>, charSet: Option<string>,
               reg: Registry, o: Oracle, at: nat): (r: Result<Produced>)
    requires Valid(o)
    ensures r.Ok? ==> OnlyBaseChanged(reg, r.value.reg)
  {
    if charSet.None? && template.None? then
      var text := Choices(DefaultAlphabet, n, o, at).value;
      Ok(Produced(text, reg, at + Count(n)))
    else
      var afterSet :- SetStep(charSet, n, reg, o, at);
      if template.Some? && |template.value| > 0 then
        CheckTemplate(template.value, afterSet.reg, o, afterSet.at)
      else Ok(afterSet)
  }

  /** A missing length means nine. */
  lemma LengthDefaultsToNine(template: Option<string>, charSet: Option<string>, reg: Registry, o: Oracle, at: nat)
    requires Valid(o)
    ensures GeneratePassword(None, template, charSet, reg, o, at) == GeneratePassword(Some(9), template, charSet, reg, o, at)
  {
  }

  /**
    With neither a set nor a template the run cannot fail: it yields length
    characters (none for a negative length) of the default alphabet, one
    draw each, and leaves the registry alone.
   */
  lemma DefaultMode(length: int, reg: Registry, o: Oracle, at: nat)
    requires Valid(o)
    ensures var r := GeneratePassword(Some(length), None, None, reg, o, at);
      && r.Ok?
      && |r.value.text| == (if length < 0 then 0 else length)
      && (forall c :: c in r.value.text ==> c in Lower || c in Upper || c in Digits || c in Punctuation)
      && r.value.reg == reg && r.value.at == at + |r.value.text|
  {
    var r := GeneratePassword(Some(length), None, None, reg, o, at);
    var text := Choices(DefaultAlphabet, length, o, at).value;
    assert r.value.text == text;
    forall c | c in text
      ensures c in Lower || c in Upper || c in Digits || c in Punctuation
    {
      assert c in DefaultAlphabet;
    }
  }

  /**
    With a non-empty set and no template, the password is length characters
    of the set's pool; the run fails exactly when a positive length meets an
    empty pool, and the registry the expansion left is kept.
   */
  lemma SetMode(length: int, charSet: string, template: Option<string>, reg: Registry, o: Oracle, at: nat)
    requires Valid(o)
    requires |charSet| > 0
    requires template.None? || template == Some("")
    ensures var pool := Expand(charSet, reg, o, at);
      var r := GeneratePassword(Some(length), template, Some(charSet), reg, o, at);
      && (r.Err? <==> length > 0 && |pool.text| == 0)
      && (r.Ok? ==> |r.value.text| == Count(length) && forall c :: c in r.value.text ==> c in pool.text)
      && (r.Ok? ==> r.value.reg == pool.reg && r.value.at == pool.at + Count(length))
  {
    assert GeneratePassword(Some(length), template, Some(charSet), reg, o, at)
        == SetStep(Some(charSet), length, reg, o, at);
  }

  /**
    A non-empty template decides the password. Without a set it is exactly
    check_template's result and the length plays no part; with a set, the
    set step's failure comes first, and otherwise the template is read with
    the registry and draws the set step left.
   */
  lemma TemplateDecides(length: Option<int>, template: string, charSet: Option<string>, reg: Registry, o: Oracle, at: nat)
    requires Valid(o)
    requires |template| > 0
    ensures charSet.None? || charSet == Some("") ==>
      GeneratePassword(length, Some(template), charSet, reg, o, at) == CheckTemplate(template, reg, o, at)
    ensures var n := if length.None? then DefaultLength else length.value;
      var s := SetStep(charSet, n, reg, o, at);
      var r := GeneratePassword(length, Some(template), charSet, reg, o, at);
      && (s.Err? ==> r.Err?)
      && (s.Ok? ==> r == CheckTemplate(template, s.value.reg, o, s.value.at))
  {
    var n := if length.None? then DefaultLength else length.value;
    var s := SetStep(charSet, n, reg, o, at);
    var r := GeneratePassword(length, Some(template), charSet, reg, o, at);
    if s.Ok? {
      var c := CheckTemplate(template, s.value.reg, o, s.value.at);
      if c.Ok? {
        assert r == Ok(c.value);
      }
    }
  }

  /** Given but empty inputs produce the empty password and use nothing. */
  lemma EmptyInputs(length: Option<int>, template: Option<string>, charSet: Option<string>, reg: Registry, o: Oracle, at: nat)
    requires Valid(o)
    requires template.Some? || charSet.Some?
    requires template.None? || template == Some("")
    requires charSet.None? || charSet == Some("")
    ensures GeneratePassword(length, template, charSet, reg, o, at) == Ok(Produced("", reg, at))
  {
  }
}

=== FILE: outcomes.dfy ===
/** Failure-compatible results shared by the generator's modules. */
module Outcomes {
  import opened Config

  datatype Option<+T> = None | Some(value: T)

  /**
    The only failure the engine can meet: drawing a character from an empty
    string, which Python reports as an IndexError.
   */
  datatype Failure = EmptyPool

  datatype Result<+T> = Ok(value: T) | Err(failure: Failure) {

    predicate IsFailure() {
      Err?
    }

    function PropagateFailure<U>(): Result<U>
      requires Err?
    {
      Err(failure)
    }

    function Extract(): T
      requires Ok?
    {
      value
    }
  }

  /**
    The text one step produced, together with the registry it leaves behind
    (exclusions persist) and the number of random draws used so far.
   */
  datatype Produced = Produced(text: string, reg: Registry, at: nat)
}

=== FILE: set_expander.dfy ===
/**
  The set expander (set_generator): turns a set specification into the pool
  of candidate characters. In order: pick one side of the first '|', apply
  the exclusion after the first '^' to the registry, deduplicate, and walk the
  distinct characters with a one-shot escape flag, appending the alphabet of
  every known code.
 */
module SetExpander {
  import opened Config
  import opened Outcomes
  import opened Chance

  /** The codes whose alphabets an exclusion rebuilds. */
  const BaseCodes: set<char> := {'d', 'l', 'u', 'p'}

  /** Python's s.split(sep, 1) for a separator that occurs in s. */
  function SplitFirst(s: string, sep: char): (r: (string, string))
    requires sep in s
    ensures s == r.0 + [sep] + r.1
    ensures sep !in r.0
  {
    if s[0] == sep then ("", s[1..])
    else
      var (before, after) := SplitFirst(s[1..], sep);
      assert s == [s[0]] + s[1..];
      ([s[0]] + before, after)
  }

  /** The split is determined: the text before the first separator and everything after it. */
  lemma {:induction false} SplitFirstUnique(before: string, sep: char, after: string)
    requires sep !in before
    ensures SplitFirst(before + [sep] + after, sep) == (before, after)
  {
    var s := before + [sep] + after;
    if |before| > 0 {
      assert s[0] == before[0] != sep;
      assert s[1..] == before[1..] + [sep] + after;
      SplitFirstUnique(before[1..], sep, after);
      assert before == [before[0]] + before[1..];
    } else {
      assert s[0] == sep && s[1..] == after;
    }
  }

  /** The characters of base that are not in excluded, in their original order. */
  function Without(base: string, excluded: string): (r: string)
    ensures forall c :: c in r <==> c in base && c !in excluded
    ensures forall c {:trigger multiset(r)[c]} :: multiset(r)[c] == if c in excluded then 0 else multiset(base)[c]
    ensures |r| <= |base|
  {
    if |base| == 0 then ""
    else
      assert base == [base[0]] + base[1..];
      assert forall c :: c in base <==> c == base[0] || c in base[1..];
      (if base[0] in excluded then "" else [base[0]]) + Without(base[1..], excluded)
  }

  lemma RebuiltNothingAt(k: char)
    requires k in BaseCodes
    ensures Rebuilt("")[k] == BaseSet(k)
  {
    WithoutEmpty(BaseSet(k));
  }

  lemma {:induction false} WithoutEmpty(base: string)
    ensures Without(base, "") == base
  {
    if |base| > 0 {
      WithoutEmpty(base[1..]);
      assert base == [base[0]] + base[1..];
    }
  }

  /** The filter keeps order: it works piecewise on a concatenation. */
  lemma {:induction false} WithoutAppend(a: string, b: string, excluded: string)
    ensures Without(a + b, excluded) == Without(a, excluded) + Without(b, excluded)
  {
    if |a| > 0 {
      assert (a + b)[0] == a[0] && (a + b)[1..] == a[1..] + b;
      WithoutAppend(a[1..], b, excluded);
    } else {
      assert a + b == b;
    }
  }

  /** Excluding characters that do not occur in base leaves base as it is. */
  lemma {:induction false} WithoutNothing(base: string, excluded: string)
    requires forall c :: c in base ==> c !in excluded
    ensures Without(base, excluded) == base
  {
    if |base| > 0 {
      assert base[0] in base;
      WithoutNothing(base[1..], excluded);
      assert base == [base[0]] + base[1..];
    }
  }

  /** The pristine set a base code is rebuilt from. */
  function BaseSet(code: char): string
    requires code in BaseCodes
  {
    match code
    case 'd' => Digits
    case 'l' => Lower
    case 'u' => Upper
    case 'p' => Punct
  }

  /**
    The registry after `^excluded`: the d, l, u and p entries rebuilt from the
    pristine digit, lower-case, upper-case and ",.;:" sets minus the excluded
    characters. No other entry changes.
   */
  function Exclude(reg: Registry, excluded: string): (r: Registry)
    ensures r.Keys == reg.Keys + BaseCodes
    ensures forall k :: k in reg && k !in BaseCodes ==> r[k] == reg[k]
    ensures forall k, c :: k in BaseCodes ==> (c in r[k] <==> c in BaseSet(k) && c !in excluded)
    ensures forall k :: k in BaseCodes ==> r[k] == Without(BaseSet(k), excluded)
  {
    reg + Rebuilt(excluded)
  }

  /** Only the d, l, u and p entries may differ between the two registries. */
  predicate OnlyBaseChanged(before: Registry, after: Registry)
  {
    forall k :: k !in BaseCodes ==> (k in before <==> k in after) && (k in before ==> before[k] == after[k])
  }

  /** The four rebuilt base entries. */
  function Rebuilt(excluded: string): (r: Registry)
    ensures r.Keys == BaseCodes
    ensures forall k :: k in BaseCodes ==> r[k] == Without(BaseSet(k), excluded)
  {
    map k | k in BaseCodes :: Without(BaseSet(k), excluded)
  }

  /** Exclusions never accumulate: only the latest one is in force. */
  lemma ExclusionsDoNotAccumulate(reg: Registry, first: string, second: string)
    ensures Exclude(Exclude(reg, first), second) == Exclude(reg, second)
  {
    assert Exclude(reg, first) == reg + Rebuilt(first);
    OverrideTwice(reg, Rebuilt(first), Rebuilt(second));
  }

  lemma OverrideTwice(m: Registry, a: Registry, b: Registry)
    requires a.Keys == b.Keys
    ensures (m + a) + b == m + b
  {
  }

  /** The base entries of reg are the pristine base sets, as in the initial registry. */
  ghost predicate Pristine(reg: Registry)
  {
    forall k :: k in BaseCodes ==> k in reg && reg[k] == BaseSet(k)
  }

  lemma InitialPristine()
    ensures Pristine(Initial())
  {
  }

  /**
    An empty exclusion ("spec^") puts the pristine base sets back: the
    registry a run started from is restored, whatever was excluded before.
   */
  lemma EmptyExclusionRestores(reg: Registry, excluded: string)
    requires Pristine(reg)
    ensures Exclude(Exclude(reg, excluded), "") == reg
  {
    var once := Exclude(reg, excluded);
    ExcludeOverrides(reg, excluded);
    ExcludeOverrides(once, "");
    RebuiltNothing(reg);
    OverrideTwice(reg, Rebuilt(excluded), Rebuilt(""));
    OverrideSame(reg, Rebuilt(""));
  }

  lemma ExcludeOverrides(reg: Registry, excluded: string)
    ensures Exclude(reg, excluded) == reg + Rebuilt(excluded)
  {
  }

  /** Rebuilding with nothing excluded yields the pristine base sets. */
  lemma RebuiltNothing(reg: Registry)
    requires Pristine(reg)
    ensures forall k :: k in Rebuilt("") ==> k in reg && Rebuilt("")[k] == reg[k]
  {
    forall k | k in BaseCodes
      ensures Rebuilt("")[k] == BaseSet(k)
    {
      RebuiltNothingAt(k);
    }
  }

  lemma OverrideSame(m: Registry, b: Registry)
    requires forall k :: k in b ==> k in m && b[k] == m[k]
    ensures m + b == m
  {
  }

  /**
    Reference: the alphabets of the codes of w, concatenated in the order of
    w; characters that are not codes contribute nothing.
   */
  function Alphabets(w: string, reg: Registry): string
  {
    if |w| == 0 then "" else (if w[0] in reg then reg[w[0]] else "") + Alphabets(w[1..], reg)
  }

  lemma {:induction false} AlphabetsAppend(a: string, b: string, reg: Registry)
    ensures Alphabets(a + b, reg) == Alphabets(a, reg) + Alphabets(b, reg)
  {
    if |a| > 0 {
      assert (a + b)[0] == a[0] && (a + b)[1..] == a[1..] + b;
      AlphabetsAppend(a[1..], b, reg);
    } else {
      assert a + b == b;
    }
  }

  /**
    The loop of set_generator over the distinct characters w of the spec, in
    iteration order, with the escape flag: an escaped character is appended
    as it is, '\' sets the flag, a code appends its alphabet, anything else
    is skipped without complaint.
   */
  function Walk(w: string, reg: Registry, escaped: bool): (pool: string)
    ensures forall c :: c in pool ==> c in w || exists k :: k in w && k in reg && c in reg[k]
  {
    if |w| == 0 then ""
    else
      assert forall k :: k in w[1..] ==> k in w;
      if escaped then [w[0]] + Walk(w[1..], reg, false)
      else if w[0] == '\\' then Walk(w[1..], reg, true)
      else if w[0] in reg then reg[w[0]] + Walk(w[1..], reg, false)
      else Walk(w[1..], reg, false)
  }

  /** Without a backslash the walk is exactly the concatenation of the code alphabets. */
  lemma {:induction false} WalkPlain(w: string, reg: Registry)
    requires '\\' !in w
    requires '\\' !in reg
    ensures Walk(w, reg, false) == Alphabets(w, reg)
  {
    if |w| > 0 {
      assert w[0] in w;
      WalkPlain(w[1..], reg);
    }
  }

  /**
    With one backslash, the character after it is the only literal in the
    pool: it is added once, as itself, and in place of its alphabet.
   */
  lemma {:induction false} WalkEscaped(before: string, after: string, reg: Registry)
    requires '\\' !in before && '\\' !in after
    requires '\\' !in reg
    ensures Walk(before + ['\\'] + after, reg, false) ==
      Alphabets(before, reg) + (if |after| == 0 then "" else [after[0]] + Alphabets(after[1..], reg))
  {
    var w := before + ['\\'] + after;
    if |before| > 0 {
      assert before[0] in before;
      assert w[0] == before[0] && w[1..] == before[1..] + ['\\'] + after;
      WalkEscaped(before[1..], after, reg);
    } else {
      assert w[0] == '\\' && w[1..] == after;
      if |after| > 0 {
        assert after[0] in after;
        assert forall c :: c in after[1..] ==> c in after;
        WalkPlain(after[1..], reg);
      }
    }
  }

  /**
    Every pool character is a character of the alphabet of some code of w,
    or the character that directly follows '\' in w (or the head of w when
    the walk starts escaped).
   */
  lemma {:induction false} WalkMembers(w: string, reg: Registry, escaped: bool, c: char)
    requires c in Walk(w, reg, escaped)
    ensures || (escaped && |w| > 0 && c == w[0])
            || (exists k :: k in w && k in reg && c in reg[k])
            || (exists i :: 0 <= i < |w| - 1 && w[i] == '\\' && w[i + 1] == c)
  {
    var rest := w[1..];
    assert forall k :: k in rest ==> k in w;
    if escaped {
      if c != w[0] {
        WalkMembers(rest, reg, false, c);
        if exists i :: 0 <= i < |rest| - 1 && rest[i] == '\\' && rest[i + 1] == c {
          var i :| 0 <= i < |rest| - 1 && rest[i] == '\\' && rest[i + 1] == c;
          assert w[i + 1] == '\\' && w[i + 2] == c;
        }
      }
    } else if w[0] == '\\' {
      WalkMembers(rest, reg, true, c);
      if c == rest[0] {
        assert w[0] == '\\' && w[1] == c;
      } else if exists i :: 0 <= i < |rest| - 1 && rest[i] == '\\' && rest[i + 1] == c {
        var i :| 0 <= i < |rest| - 1 && rest[i] == '\\' && rest[i + 1] == c;
        assert w[i + 1] == '\\' && w[i + 2] == c;
      }
    } else if w[0] in reg && c in reg[w[0]] {
      assert w[0] in w;
    } else {
      WalkMembers(rest, reg, false, c);
      if exists i :: 0 <= i < |rest| - 1 && rest[i] == '\\' && rest[i + 1] == c {
        var i :| 0 <= i < |rest| - 1 && rest[i] == '\\' && rest[i + 1] == c;
        assert w[i + 1] == '\\' && w[i + 2] == c;
      }
    }
  }

  /** The side of the first '|' chosen at draw `at` (spec itself when there is none), and the next draw. */
  function Alternative(spec: string, o: Oracle, at: nat): (r: (string, nat))
    ensures r.1 == at + (if '|' in spec then 1 else 0)
    ensures forall c :: c in r.0 ==> c in spec
  {
    if '|' in spec then
      var (first, second) := SplitFirst(spec, '|');
      (if PickFirst(o, at) then first else second, at + 1)
    else (spec, at)
  }

  /** The text before the first '^' and the registry with the exclusion after it applied. */
  function Exclusion(s: string, reg: Registry): (r: (string, Registry))
    ensures forall c :: c in r.0 ==> c in s
    ensures '^' !in s ==> r == (s, reg)
    ensures OnlyBaseChanged(reg, r.1)
  {
    if '^' in s then
      var (kept, excluded) := SplitFirst(s, '^');
      (kept, Exclude(reg, excluded))
    else (s, reg)
  }

  /** Steps two to four of set_generator on the chosen alternative: exclusion, deduplication, walk. */
  function Body(chosen: string, reg: Registry, o: Oracle, at: nat): (r: Produced)
    ensures r.at == at
    ensures '^' !in chosen ==> r.reg == reg
    ensures OnlyBaseChanged(reg, r.reg)
  {
    var (kept, reg') := Exclusion(chosen, reg);
    Produced(Walk(o.order(kept), reg', false), reg', at)
  }

  /**
    set_generator: the pool of candidate characters of spec, the registry it
    leaves behind and the next draw. Only d, l, u and p can change in the
    registry, and only when the spec has a '^'; one draw is used exactly when
    the spec has a '|'.
   */
  function Expand(spec: string, reg: Registry, o: Oracle, at: nat): (r: Produced)
    requires Valid(o)
    ensures r.at == at + (if '|' in spec then 1 else 0)
    ensures '^' !in spec ==> r.reg == reg
    ensures OnlyBaseChanged(reg, r.reg)
  {
    var (chosen, next) := Alternative(spec, o, at);
    Body(chosen, reg, o, next)
  }

  /** The exclusion a spec applies: the text after the first '^' of the chosen side, if it has one. */
  function ExcludedBy(spec: string, o: Oracle, at: nat): Option<string>
  {
    var chosen := Alternative(spec, o, at).0;
    if '^' in chosen then Some(SplitFirst(chosen, '^').1) else None
  }

  /** The registry reg with the exclusion x applied, or reg itself when there is none. */
  function Excluded(reg: Registry, x: Option<string>): Registry
  {
    match x
    case None => reg
    case Some(excluded) => Exclude(reg, excluded)
  }

  /** The registry set_generator leaves is the one its exclusion, if any, rebuilds. */
  lemma ExpandRegistry(spec: string, reg: Registry, o: Oracle, at: nat)
    requires Valid(o)
    ensures Expand(spec, reg, o, at).reg == Excluded(reg, ExcludedBy(spec, o, at))
  {
  }

  /** Applying an exclusion after another leaves the later one alone in force. */
  lemma ExcludedTwice(reg: Registry, first: Option<string>, second: Option<string>)
    ensures Excluded(Excluded(reg, first), second) == Excluded(reg, if second.Some? then second else first)
  {
    if first.Some? && second.Some? {
      ExclusionsDoNotAccumulate(reg, first.value, second.value);
    }
  }

  /**
    Every pool character belongs to the alphabet (in the registry the call
    returns) of some code of the spec, or is a character of the spec taken
    literally after a backslash.
   */
  lemma PoolMembers(spec: string, reg: Registry, o: Oracle, at: nat)
    requires Valid(o)
    ensures var r := Expand(spec, reg, o, at);
      forall c :: c in r.text ==> c in spec || exists k :: k in spec && k in r.reg && c in r.reg[k]
  {
    var (chosen, next) := Alternative(spec, o, at);
    var (kept, reg') := Exclusion(chosen, reg);
    var w := o.order(kept);
    var pool := Walk(w, reg', false);
    assert Expand(spec, reg, o, at) == Produced(pool, reg', next);
    assert forall c :: c in w ==> c in spec;
    forall c | c in pool
      ensures c in spec || exists k :: k in spec && k in reg' && c in reg'[k]
    {
      WalkMembers(w, reg', false, c);
    }
  }

  /** Distinct strings hold each of their characters exactly once. */
  lemma {:induction false} DistinctMultiplicity(w: string, c: char)
    requires Distinct(w)
    ensures multiset(w)[c] == if c in w then 1 else 0
  {
    if |w| > 0 {
      assert w == [w[0]] + w[1..];
      assert Distinct(w[1..]);
      assert w[0] !in w[1..];
      DistinctMultiplicity(w[1..], c);
    }
  }

  /** Two iteration orders of the same set are permutations of each other. */
  lemma ListingsArePermutations(w1: string, w2: string, s: string)
    requires IsListing(w1, s) && IsListing(w2, s)
    ensures multiset(w1) == multiset(w2)
  {
    forall c
      ensures multiset(w1)[c] == multiset(w2)[c]
    {
      DistinctMultiplicity(w1, c);
      DistinctMultiplicity(w2, c);
    }
  }

  /** Reordering the codes reorders the pool and nothing more. */
  lemma {:induction false} AlphabetsPermutation(w1: string, w2: string, reg: Registry)
    requires multiset(w1) == multiset(w2)
    ensures multiset(Alphabets(w1, reg)) == multiset(Alphabets(w2, reg))
    decreases |w1|
  {
    if |w1| > 0 {
      var k := RemoveOne(w1, w2);
      var front, back := w2[..k], w2[k + 1..];
      AlphabetsPermutation(w1[1..], front + back, reg);
      var a := Alphabets([w1[0]], reg);
      var f, b := Alphabets(front, reg), Alphabets(back, reg);
      assert multiset(Alphabets(w1[1..], reg)) == multiset(f + b) by {
        AlphabetsAppend(front, back, reg);
      }
      assert Alphabets(w2, reg) == f + a + b by {
        AlphabetsSplice(front, w1[0], back, reg);
      }
      assert Alphabets(w1, reg) == a + Alphabets(w1[1..], reg) by {
        assert w1 == [w1[0]] + w1[1..];
        AlphabetsAppend([w1[0]], w1[1..], reg);
      }
      MovedToFront(f, a, b, Alphabets(w1[1..], reg));
    }
  }

  /** Moving a block of a concatenation to the front keeps its multiset. */
  lemma MovedToFront(f: string, a: string, b: string, z: string)
    requires multiset(z) == multiset(f + b)
    ensures multiset(a + z) == multiset(f + a + b)
  {
  }

  /**
    Taking the same character out of two permutations leaves permutations:
    the head of w1 occurs in w2 at position k.
   */
  lemma RemoveOne(w1: string, w2: string) returns (k: nat)
    requires multiset(w1) == multiset(w2) && |w1| > 0
    ensures k < |w2| && w2[k] == w1[0]
    ensures w2 == w2[..k] + [w1[0]] + w2[k + 1..]
    ensures multiset(w1[1..]) == multiset(w2[..k] + w2[k + 1..])
  {
    var c := w1[0];
    assert w1 == [c] + w1[1..];
    assert c in multiset(w2);
    k := IndexOf(w2, c);
    assert w2 == w2[..k] + [c] + w2[k + 1..];
    assert multiset(w1) == multiset{c} + multiset(w1[1..]);
    assert multiset(w2) == multiset(w2[..k]) + multiset{c} + multiset(w2[k + 1..]);
    assert multiset(w1[1..]) == multiset(w1) - multiset{c};
    assert multiset(w2[..k] + w2[k + 1..]) == multiset(w2) - multiset{c};
  }

  /** The alphabets of front + [c] + back are those of front, of c and of back, in that order. */
  lemma AlphabetsSplice(front: string, c: char, back: string, reg: Registry)
    ensures Alphabets(front + [c] + back, reg) == Alphabets(front, reg) + Alphabets([c], reg) + Alphabets(back, reg)
  {
    assert front + [c] + back == front + ([c] + back);
    AlphabetsAppend(front, [c] + back, reg);
    AlphabetsAppend([c], back, reg);
  }

  /**
    A spec without '|', '^' or '\' expands to the alphabets of its distinct
    codes, each exactly once however often it is repeated: the pool is, up to
    order, the concatenation of those alphabets in order of first occurrence.
    The registry and the draws are untouched.
   */
  lemma ExpandPlain(spec: string, reg: Registry, o: Oracle, at: nat)
    requires Valid(o)
    requires '|' !in spec && '^' !in spec && '\\' !in spec && '\\' !in reg
    ensures Expand(spec, reg, o, at).reg == reg && Expand(spec, reg, o, at).at == at
    ensures Expand(spec, reg, o, at).text == Alphabets(o.order(spec), reg)
    ensures multiset(Expand(spec, reg, o, at).text) == multiset(Alphabets(FirstOccurrences(spec), reg))
  {
    var w := o.order(spec);
    assert IsListing(w, spec);
    assert '\\' !in w;
    WalkPlain(w, reg);
    ListingsArePermutations(w, FirstOccurrences(spec), spec);
    AlphabetsPermutation(w, FirstOccurrences(spec), reg);
  }

  /**
    The pool of a plain spec depends only on which characters it contains:
    not on how often they are repeated, nor on the set iteration order.
   */
  lemma SameCharactersSamePool(spec1: string, spec2: string, reg: Registry, o1: Oracle, o2: Oracle, at1: nat, at2: nat)
    requires Valid(o1) && Valid(o2)
    requires '|' !in spec1 && '^' !in spec1 && '\\' !in spec1 && '\\' !in reg
    requires forall c :: c in spec1 <==> c in spec2
    ensures multiset(Expand(spec1, reg, o1, at1).text) == multiset(Expand(spec2, reg, o2, at2).text)
  {
    var w1, w2 := o1.order(spec1), o2.order(spec2);
    assert IsListing(w1, spec1) && IsListing(w2, spec2);
    assert '\\' !in w1 && '\\' !in w2;
    WalkPlain(w1, reg);
    WalkPlain(w2, reg);
    ListingsArePermutations(w1, w2, spec1);
    AlphabetsPermutation(w1, w2, reg);
  }

  /**
    With a '|', the spec is split at its first '|' and the pool is the
    expansion of exactly one side: the first when the draw picks it, the
    second otherwise. Later '|' characters stay in the second side.
   */
  lemma AlternationChoosesSide(first: string, second: string, reg: Registry, o: Oracle, at: nat)
    requires Valid(o)
    requires '|' !in first
    ensures Expand(first + ['|'] + second, reg, o, at) ==
      if PickFirst(o, at) then Body(first, reg, o, at + 1) else Body(second, reg, o, at + 1)
    ensures PickFirst(o, at) ==> Expand(first + ['|'] + second, reg, o, at) == Expand(first, reg, o, at + 1)
    ensures !PickFirst(o, at) && '|' !in second ==>
      Expand(first + ['|'] + second, reg, o, at) == Expand(second, reg, o, at + 1)
  {
    SplitFirstUnique(first, '|', second);
  }

  /**
    With a '^' (and no '|'), only the text before the first '^' is expanded,
    and it is expanded against the registry with the exclusion applied.
   */
  lemma ExclusionExpandsKept(kept: string, excluded: string, reg: Registry, o: Oracle, at: nat)
    requires Valid(o)
    requires '^' !in kept && '|' !in kept && '|' !in excluded
    ensures Expand(kept + ['^'] + excluded, reg, o, at) == Expand(kept, Exclude(reg, excluded), o, at)
  {
    SplitFirstUnique(kept, '^', excluded);
  }

  /**
    A deduplicated spec holds at most one backslash, so at most one character
    is taken literally: the one that follows the backslash in iteration order,
    and it is added once, in place of its alphabet.
   */
  lemma EscapeAtMostOnce(spec: string, reg: Registry, o: Oracle, at: nat)
    requires Valid(o)
    requires '|' !in spec && '^' !in spec && '\\' in spec && '\\' !in reg
    ensures
      var w := o.order(spec);
      var i := IndexOf(w, '\\');
      Expand(spec, reg, o, at).text ==
        Alphabets(w[..i], reg) + (if i + 1 < |w| then [w[i + 1]] + Alphabets(w[i + 2..], reg) else "")
  {
    var w := o.order(spec);
    assert IsListing(w, spec);
    var i := IndexOf(w, '\\');
    assert w == w[..i] + ['\\'] + w[i + 1..];
    assert '\\' !in w[..i] && '\\' !in w[i + 1..];
    WalkEscaped(w[..i], w[i + 1..], reg);
    if i + 1 < |w| {
      assert w[i + 1..][1..] == w[i + 2..];
    }
  }

  /** The base codes are plain letters, none of them an operator. */
  lemma BaseCodesAreLetters(code: char)
    requires code in BaseCodes
    ensures 'a' <= code <= 'z' && code !in Operators
  {
  }

  /** A single code expands to exactly its alphabet. */
  lemma SingleCode(code: char, reg: Registry, o: Oracle, at: nat)
    requires Valid(o)
    requires code in reg && code != '|' && code != '^' && code != '\\'
    ensures Expand([code], reg, o, at) == Produced(reg[code], reg, at)
  {
    ListingOfOne(o.order([code]), code);
    assert '|' !in [code] && '^' !in [code];
    assert Walk([code], reg, false) == reg[code] + Walk("", reg, false);
  }

  /**
    An exclusion outlives the call that made it: after "kept^excluded" a base
    code stands for its pristine set without the excluded characters, in
    every later expansion that receives the registry the call returns.
   */
  lemma ExclusionPersists(kept: string, excluded: string, code: char, reg: Registry, o: Oracle, at: nat)
    requires Valid(o)
    requires '^' !in kept && '|' !in kept && '|' !in excluded
    requires code in BaseCodes
    ensures
      var first := Expand(kept + ['^'] + excluded, reg, o, at);
      forall c :: c in Expand([code], first.reg, o, first.at).text <==> c in BaseSet(code) && c !in excluded
  {
    ExclusionExpandsKept(kept, excluded, reg, o, at);
    var excludedReg := Exclude(reg, excluded);
    var first := Expand(kept + ['^'] + excluded, reg, o, at);
    assert first == Expand(kept, excludedReg, o, at);
    assert first.reg == excludedReg;
    assert code in excludedReg.Keys;
    BaseCodesAreLetters(code);
    SingleCode(code, excludedReg, o, first.at);
    assert Expand([code], first.reg, o, first.at).text == excludedReg[code];
  }
}

=== FILE: template.dfy ===
/**
  The template engine (check_template). A template is handled in at most two
  phases. First, if it holds a repeat placeholder, only the first placeholder
  is expanded; otherwise, if it holds custom-set blocks, every block is
  replaced by characters drawn from its own pool. Whatever the first phase
  produced is the start of the password, and the characters it produced that
  do not occur in the template become the template of the second phase, the
  literal pass: a code draws one character of its alphabet, '\' makes the next
  character literal, and anything else is dropped.
 */
module Template {
  import opened Config
  import opened Outcomes
  import opened Chance
  import opened SetExpander
  import opened TemplateScan

  /** What one template character contributes in the literal pass. */
  datatype Slot = Literal(c: char) | Draw(code: char)

  /**
    Reference reading of the literal pass: the slot each character fills, in
    order. An escaped character is a literal, '\' opens an escape, a code
    draws from its alphabet, and every other character fills no slot.
   */
  function Slots(t: string, reg: Registry, escaped: bool): seq<Slot>
  {
    if |t| == 0 then []
    else if escaped then [Literal(t[0])] + Slots(t[1..], reg, false)
    else if t[0] == '\\' then Slots(t[1..], reg, true)
    else if t[0] in reg then [Draw(t[0])] + Slots(t[1..], reg, false)
    else Slots(t[1..], reg, false)
  }

  /** c may fill slot s. */
  predicate Allowed(s: Slot, c: char, reg: Registry)
  {
    match s
    case Literal(l) => c == l
    case Draw(code) => code in reg && c in reg[code]
  }

  /** out fills the slots one character each. */
  predicate Fits(out: string, slots: seq<Slot>, reg: Registry)
  {
    |out| == |slots| && forall k :: 0 <= k < |out| ==> Allowed(slots[k], out[k], reg)
  }

  /** The slot draws from an empty alphabet, which raises an IndexError. */
  predicate Starved(s: Slot, reg: Registry)
  {
    s.Draw? && s.code in reg && |reg[s.code]| == 0
  }

  /** The number of random draws the slots consume. */
  function Draws(slots: seq<Slot>): nat
  {
    if |slots| == 0 then 0 else (if slots[0].Draw? then 1 else 0) + Draws(slots[1..])
  }

  /**
    The literal pass over t, starting with the escape flag `escaped`. It
    fails exactly when a code with an empty alphabet is reached; otherwise
    every slot receives one character it allows, one draw per code, and the
    registry is left as it is.
   */
  function LiteralPass(t: string, reg: Registry, o: Oracle, at: nat, escaped: bool): (r: Result<Produced>)
    ensures r.Err? <==> AnyStarved(Slots(t, reg, escaped), reg)
    ensures r.Ok? ==> Fits(r.value.text, Slots(t, reg, escaped), reg)
    ensures r.Ok? ==> r.value.reg == reg && r.value.at == at + Draws(Slots(t, reg, escaped))
    decreases |t|
  {
    if |t| == 0 then Ok(Produced("", reg, at))
    else if escaped then
      StarvedFront(Literal(t[0]), Slots(t[1..], reg, false), reg);
      var rest :- LiteralPass(t[1..], reg, o, at, false);
      Shifted(Literal(t[0]), t[0], Slots(t[1..], reg, false), rest.text, reg);
      Ok(Produced([t[0]] + rest.text, reg, rest.at))
    else if t[0] == '\\' then LiteralPass(t[1..], reg, o, at, true)
    else if t[0] in reg then
      StarvedFront(Draw(t[0]), Slots(t[1..], reg, false), reg);
      if |reg[t[0]]| == 0 then Err(EmptyPool)
      else
        var rest :- LiteralPass(t[1..], reg, o, at + 1, false);
        var c := Pick(reg[t[0]], o, at);
        Shifted(Draw(t[0]), c, Slots(t[1..], reg, false), rest.text, reg);
        Ok(Produced([c] + rest.text, reg, rest.at))
    else LiteralPass(t[1..], reg, o, at, false)
  }

  /** Some slot draws from an empty alphabet. */
  predicate AnyStarved(slots: seq<Slot>, reg: Registry)
  {
    exists k :: 0 <= k < |slots| && Starved(slots[k], reg)
  }

  /** One more slot in front starves exactly when it or one of the others does. */
  lemma StarvedFront(s: Slot, slots: seq<Slot>, reg: Registry)
    ensures AnyStarved([s] + slots, reg) <==> Starved(s, reg) || AnyStarved(slots, reg)
  {
    if Starved(s, reg) {
      assert Starved(([s] + slots)[0], reg);
    }
    if AnyStarved(slots, reg) {
      var k :| 0 <= k < |slots| && Starved(slots[k], reg);
      assert ([s] + slots)[k + 1] == slots[k];
    }
    if AnyStarved([s] + slots, reg) {
      var k :| 0 <= k < |slots| + 1 && Starved(([s] + slots)[k], reg);
      if k > 0 {
        assert ([s] + slots)[k] == slots[k - 1];
      }
    }
  }

  /** One more slot filled in front of a fitting string still fits, and nothing starves that did not. */
  lemma Shifted(s: Slot, c: char, slots: seq<Slot>, out: string, reg: Registry)
    requires Allowed(s, c, reg) && Fits(out, slots, reg) && !AnyStarved(slots, reg)
    ensures Fits([c] + out, [s] + slots, reg)
    ensures !AnyStarved([s] + slots, reg)
  {
    assert forall k :: 1 <= k < |out| + 1 ==> ([c] + out)[k] == out[k - 1] && ([s] + slots)[k] == slots[k - 1];
    StarvedFront(s, slots, reg);
  }

  /** The codes of t that the registry knows, in template order and with repetitions. */
  function KnownCodes(t: string, reg: Registry): (codes: string)
    ensures forall c :: c in codes ==> c in t && c in reg
  {
    if |t| == 0 then ""
    else (if t[0] in reg then [t[0]] else "") + KnownCodes(t[1..], reg)
  }

  /** The draws made for the codes of w, in order. */
  function DrawsFor(w: string): seq<Slot>
  {
    if |w| == 0 then [] else [Draw(w[0])] + DrawsFor(w[1..])
  }

  /** Without a backslash, the literal pass draws once for each known code of t, in order, and ignores the rest. */
  lemma {:induction false} PlainSlots(t: string, reg: Registry)
    requires '\\' !in t
    ensures Slots(t, reg, false) == DrawsFor(KnownCodes(t, reg))
  {
    if |t| > 0 {
      assert t[0] in t;
      assert forall c :: c in t[1..] ==> c in t;
      PlainSlots(t[1..], reg);
      if t[0] in reg {
        var rest := KnownCodes(t[1..], reg);
        assert KnownCodes(t, reg) == [t[0]] + rest;
        assert ([t[0]] + rest)[1..] == rest;
        assert DrawsFor([t[0]] + rest) == [Draw(t[0])] + DrawsFor(rest);
      } else {
        assert KnownCodes(t, reg) == KnownCodes(t[1..], reg);
      }
    }
  }

  lemma {:induction false} DrawsForShape(w: string)
    ensures |DrawsFor(w)| == |w|
    ensures forall k :: 0 <= k < |w| ==> DrawsFor(w)[k] == Draw(w[k])
  {
    if |w| > 0 {
      DrawsForShape(w[1..]);
    }
  }

  /**
    A template with no backslash, placeholder or block: the password has one
    character per known code of the template, taken from that code's
    alphabet; it fails exactly when one of those alphabets is empty.
   */
  lemma PlainTemplate(t: string, reg: Registry, o: Oracle, at: nat)
    requires Valid(o)
    requires '\\' !in t && FindRepeat(t, 0).None? && !HasBlock(t)
    ensures var r := CheckTemplate(t, reg, o, at);
      var codes := KnownCodes(t, reg);
      && (r.Err? <==> exists k :: 0 <= k < |codes| && |reg[codes[k]]| == 0)
      && (r.Ok? ==> |r.value.text| == |codes| && forall k :: 0 <= k < |codes| ==> r.value.text[k] in reg[codes[k]])
      && (r.Ok? ==> r.value.reg == reg && r.value.at == at + |codes|)
  {
    var codes := KnownCodes(t, reg);
    PlainSlots(t, reg);
    DrawsForShape(codes);
    DrawsCount(codes);
    var r := CheckTemplate(t, reg, o, at);
    assert r == LiteralPass(t, reg, o, at, false);
    var slots := Slots(t, reg, false);
    assert forall k :: 0 <= k < |codes| ==> slots[k] == Draw(codes[k]) && codes[k] in reg;
    if r.Ok? {
      forall k | 0 <= k < |codes|
        ensures r.value.text[k] in reg[codes[k]]
      {
        assert Allowed(slots[k], r.value.text[k], reg);
      }
    }
  }

  lemma {:induction false} DrawsCount(w: string)
    ensures Draws(DrawsFor(w)) == |w|
  {
    if |w| > 0 {
      DrawsCount(w[1..]);
    }
  }

  /** n copies of c. */
  function Repeat(c: char, n: nat): (r: string)
    ensures |r| == n && forall k :: 0 <= k < n ==> r[k] == c
  {
    if n == 0 then "" else [c] + Repeat(c, n - 1)
  }

  /** The character before position i; before the first one it is the last (Python's index -1). */
  function Previous(t: string, i: nat): (c: char)
    requires i < |t|
    ensures c in t
  {
    if i == 0 then t[|t| - 1] else t[i - 1]
  }

  /** The count of the placeholder at (i, j). */
  function RepeatCount(t: string, i: nat, j: nat): nat
    requires RepeatAt(t, i, j)
  {
    DecimalValue(t[i + 1..j])
  }

  /**
    repeat_placeholders on the placeholder at (i, j) with count n. With a
    custom-set block anywhere in the template, n characters are drawn from
    the pool of all block contents joined; otherwise the character before the
    placeholder is repeated n times. Either way the result has n characters.
   */
  function RepeatPhase(t: string, i: nat, j: nat, reg: Registry, o: Oracle, at: nat): (r: Result<Produced>)
    requires Valid(o) && RepeatAt(t, i, j)
    ensures r.Ok? ==> |r.value.text| == RepeatCount(t, i, j)
    ensures HasBlock(t) ==> var pool := Expand(Inners(Parse(t)), reg, o, at);
      && (r.Err? <==> RepeatCount(t, i, j) > 0 && |pool.text| == 0)
      && (r.Ok? ==> forall c :: c in r.value.text ==> c in pool.text)
    ensures !HasBlock(t) ==> r.Ok? && r.value.reg == reg && r.value.at == at
    ensures !HasBlock(t) ==> forall c :: c in r.value.text ==> c == Previous(t, i)
    ensures HasBlock(t) && r.Ok? ==> var pool := Expand(Inners(Parse(t)), reg, o, at);
      r.value.reg == pool.reg && r.value.at == pool.at + RepeatCount(t, i, j)
    ensures r.Ok? ==> OnlyBaseChanged(reg, r.value.reg)
  {
    var n := RepeatCount(t, i, j);
    if HasBlock(t) then
      var pool := Expand(Inners(Parse(t)), reg, o, at);
      var chosen :- Choices(pool.text, n, o, pool.at);
      Ok(Produced(chosen, pool.reg, pool.at + n))
    else Ok(Produced(Repeat(Previous(t, i), n), reg, at))
  }

  /**
    One segment of the substitution. Text is copied; a block is
    handle_custom_set: its inner text is expanded and as many characters as
    the inner text is long are drawn from the pool, which fails only for a
    non-empty inner text with an empty pool.
   */
  function Fill(seg: Segment, reg: Registry, o: Oracle, at: nat): (r: Result<Produced>)
    requires Valid(o)
    ensures r.Ok? ==> |r.value.text| == |Content(seg)| && OnlyBaseChanged(reg, r.value.reg)
    ensures r.Ok? && seg.Text? ==> r.value.text == seg.s && r.value.reg == reg && r.value.at == at
    ensures seg.Block? ==> var e := Expand(seg.inner, reg, o, at);
      && (r.Err? <==> |seg.inner| > 0 && |e.text| == 0)
      && (r.Ok? ==> forall c :: c in r.value.text ==> c in e.text)
      && (r.Ok? ==> r.value.reg == e.reg && r.value.at == e.at + |seg.inner|)
  {
    match seg
    case Text(s) => Ok(Produced(s, reg, at))
    case Block(inner) =>
      var e := Expand(inner, reg, o, at);
      var chosen :- Choices(e.text, |inner|, o, e.at);
      Ok(Produced(chosen, e.reg, e.at + |inner|))
  }

  /** out is the skeleton of segs with every literal position kept. */
  predicate Matches(out: string, segs: seq<Segment>)
  {
    |out| == |Skeleton(segs)| && forall k :: 0 <= k < |out| && Verbatim(segs)[k] ==> out[k] == Skeleton(segs)[k]
  }

  /** Some block has a non-empty inner text, so it draws. */
  predicate Drawing(segs: seq<Segment>)
  {
    exists k :: 0 <= k < |segs| && segs[k].Block? && |segs[k].inner| > 0
  }

  /**
    The custom-set substitution (re.sub with handle_custom_set): the
    segments are filled left to right, each seeing the registry and the
    draws the previous one left. The result is the skeleton of the template
    with every literal position kept and every block position drawn; it can
    only fail when some block has something to draw.
   */
  function Substitute(segs: seq<Segment>, reg: Registry, o: Oracle, at: nat): (r: Result<Produced>)
    requires Valid(o)
    ensures r.Ok? ==> Matches(r.value.text, segs) && OnlyBaseChanged(reg, r.value.reg)
    ensures r.Ok? ==> r.value.at == at + BlockDraws(segs)
    ensures r.Ok? ==> r.value.reg == Excluded(reg, LastExclusion(segs, o, at))
    ensures r.Err? ==> Drawing(segs)
  {
    if |segs| == 0 then Ok(Produced("", reg, at))
    else
      DrawingFront(segs);
      var head :- Fill(segs[0], reg, o, at);
      var rest :- Substitute(segs[1..], head.reg, o, head.at);
      MatchesFront(segs, head.text, rest.text);
      FillRegistry(segs[0], reg, o, at);
      RegistryStep(segs, o, at, head.at, reg, head.reg, rest.reg);
      Ok(Produced(head.text + rest.text, rest.reg, rest.at))
  }

  /** The draws one segment uses: one per character of a block, and one more for a '|' in it. */
  function SegmentDraws(seg: Segment): nat
  {
    match seg
    case Text(_) => 0
    case Block(inner) => |inner| + if '|' in inner then 1 else 0
  }

  /** The draws all the blocks of segs use, left to right. */
  function BlockDraws(segs: seq<Segment>): nat
  {
    if |segs| == 0 then 0 else SegmentDraws(segs[0]) + BlockDraws(segs[1..])
  }

  /** The exclusion one segment applies: a block's, with the draws it starts from. */
  function OwnExclusion(seg: Segment, o: Oracle, at: nat): Option<string>
  {
    if seg.Block? then ExcludedBy(seg.inner, o, at) else None
  }

  /**
    The exclusion in force after the blocks of segs: that of the last block
    whose chosen side holds a '^', each block choosing with the draws left
    by those before it.
   */
  function LastExclusion(segs: seq<Segment>, o: Oracle, at: nat): Option<string>
  {
    if |segs| == 0 then None
    else
      var later := LastExclusion(segs[1..], o, at + SegmentDraws(segs[0]));
      if later.Some? then later else OwnExclusion(segs[0], o, at)
  }

  /** The exclusion of the first block, then those after it: the later one wins when there is one. */
  lemma RegistryStep(segs: seq<Segment>, o: Oracle, at: nat, next: nat, reg: Registry, headReg: Registry, restReg: Registry)
    requires |segs| > 0 && next == at + SegmentDraws(segs[0])
    requires headReg == Excluded(reg, OwnExclusion(segs[0], o, at))
    requires restReg == Excluded(headReg, LastExclusion(segs[1..], o, next))
    ensures restReg == Excluded(reg, LastExclusion(segs, o, at))
  {
    var own, later := OwnExclusion(segs[0], o, at), LastExclusion(segs[1..], o, next);
    LastExclusionFront(segs, o, at, next);
    ExcludedTwice(reg, own, later);
  }

  /** The exclusion in force after segs: the later blocks', or else the first block's own. */
  lemma LastExclusionFront(segs: seq<Segment>, o: Oracle, at: nat, next: nat)
    requires |segs| > 0 && next == at + SegmentDraws(segs[0])
    ensures var later := LastExclusion(segs[1..], o, next);
      LastExclusion(segs, o, at) == if later.Some? then later else OwnExclusion(segs[0], o, at)
  {
  }

  /** Filling a segment applies its own exclusion and uses its own draws. */
  lemma FillRegistry(seg: Segment, reg: Registry, o: Oracle, at: nat)
    requires Valid(o)
    ensures var r := Fill(seg, reg, o, at);
      r.Ok? ==> r.value.reg == Excluded(reg, OwnExclusion(seg, o, at)) && r.value.at == at + SegmentDraws(seg)
  {
    if seg.Block? {
      ExpandRegistry(seg.inner, reg, o, at);
    }
  }

  /** c is a character of spec itself or of the alphabet of one of its codes. */
  predicate Explained(c: char, spec: string, reg: Registry)
  {
    c in spec || exists k :: k in spec && k in reg && c in reg[k]
  }

  /** No block of segs holds an exclusion, so no block changes the registry. */
  predicate NoExclusions(segs: seq<Segment>)
  {
    forall k :: 0 <= k < |segs| && segs[k].Block? ==> '^' !in segs[k].inner
  }

  /**
    Read segment by segment, each taking as many characters of out as its
    content is long, every block's characters are explained by that block's
    own inner text.
   */
  predicate FromOwnBlock(out: string, segs: seq<Segment>, reg: Registry)
    decreases |segs|
  {
    |segs| == 0 ||
    (|Content(segs[0])| <= |out|
     && (segs[0].Block? ==> forall c :: c in out[..|Content(segs[0])|] ==> Explained(c, segs[0].inner, reg))
     && FromOwnBlock(out[|Content(segs[0])|..], segs[1..], reg))
  }

  /**
    When no block excludes anything, the substitution leaves the registry as
    it is and every character it put in place of a block comes from that
    block's own pool: a character of the block, or of the alphabet of one of
    its codes. In particular it comes from the contents of all blocks.
   */
  lemma {:induction false} SubstituteFromBlocks(segs: seq<Segment>, reg: Registry, o: Oracle, at: nat)
    requires Valid(o)
    requires NoExclusions(segs)
    ensures var r := Substitute(segs, reg, o, at);
      r.Ok? ==> (r.value.reg == reg && FromOwnBlock(r.value.text, segs, reg) &&
        forall k :: 0 <= k < |r.value.text| && !Verbatim(segs)[k] ==> Explained(r.value.text[k], Inners(segs), reg))
  {
    var r := Substitute(segs, reg, o, at);
    if |segs| > 0 && r.Ok? {
      var head := Fill(segs[0], reg, o, at).value;
      FillFromBlock(segs[0], reg, o, at);
      assert NoExclusions(segs[1..]) by {
        forall k | 0 <= k < |segs| - 1 && segs[1..][k].Block?
          ensures '^' !in segs[1..][k].inner
        {
          assert segs[1..][k] == segs[k + 1];
        }
      }
      SubstituteFromBlocks(segs[1..], reg, o, head.at);
      var rest := Substitute(segs[1..], reg, o, head.at).value;
      assert r.value == Produced(head.text + rest.text, rest.reg, rest.at);
      SubstitutedPositions(segs, head.text, rest.text, reg);
      OwnBlockFront(segs, head.text, rest.text, reg);
    }
  }

  /** A first segment filled from its own block, followed by a rest filled from theirs. */
  lemma OwnBlockFront(segs: seq<Segment>, head: string, rest: string, reg: Registry)
    requires |segs| > 0 && |head| == |Content(segs[0])|
    requires segs[0].Block? ==> forall c :: c in head ==> Explained(c, segs[0].inner, reg)
    requires FromOwnBlock(rest, segs[1..], reg)
    ensures FromOwnBlock(head + rest, segs, reg)
  {
    assert (head + rest)[..|head|] == head;
    assert (head + rest)[|head|..] == rest;
  }

  /** Extending out past what the segments read keeps every block explained. */
  lemma {:induction false} OwnBlockPrefix(prefix: string, full: string, segs: seq<Segment>, reg: Registry)
    requires prefix <= full && FromOwnBlock(prefix, segs, reg)
    ensures FromOwnBlock(full, segs, reg)
    decreases |segs|
  {
    if |segs| > 0 {
      var n := |Content(segs[0])|;
      assert full[..n] == prefix[..n];
      OwnBlockPrefix(prefix[n..], full[n..], segs[1..], reg);
    }
  }

  /** Splitting the positions of head + rest between the first segment and the others. */
  lemma SubstitutedPositions(segs: seq<Segment>, head: string, rest: string, reg: Registry)
    requires |segs| > 0 && |head| == |Content(segs[0])|
    requires segs[0].Block? ==> forall c :: c in head ==> Explained(c, segs[0].inner, reg)
    requires |rest| == |Verbatim(segs[1..])|
    requires forall k :: 0 <= k < |rest| && !Verbatim(segs[1..])[k] ==> Explained(rest[k], Inners(segs[1..]), reg)
    ensures |head + rest| == |Verbatim(segs)|
    ensures forall k :: 0 <= k < |head + rest| && !Verbatim(segs)[k] ==> Explained((head + rest)[k], Inners(segs), reg)
  {
    var v := Verbatim(segs);
    assert v == seq(|head|, _ => segs[0].Text?) + Verbatim(segs[1..]);
    assert |head + rest| == |v|;
    var front := if segs[0].Block? then segs[0].inner else "";
    assert Inners(segs) == front + Inners(segs[1..]);
    forall k | 0 <= k < |head + rest| && !v[k]
      ensures Explained((head + rest)[k], Inners(segs), reg)
    {
      if k < |head| {
        assert segs[0].Block? && head[k] in head;
        Widened(head[k], front, Inners(segs), reg);
      } else {
        assert !Verbatim(segs[1..])[k - |head|];
        Widened(rest[k - |head|], Inners(segs[1..]), Inners(segs), reg);
      }
    }
  }

  /** Explained by a part of a spec is explained by the whole. */
  lemma Widened(c: char, part: string, whole: string, reg: Registry)
    requires Explained(c, part, reg)
    requires forall x :: x in part ==> x in whole
    ensures Explained(c, whole, reg)
  {
  }

  /** A block without exclusion keeps the registry and draws only characters its inner text explains. */
  lemma FillFromBlock(seg: Segment, reg: Registry, o: Oracle, at: nat)
    requires Valid(o)
    requires seg.Block? ==> '^' !in seg.inner
    ensures var r := Fill(seg, reg, o, at);
      r.Ok? ==> r.value.reg == reg && (seg.Block? ==> forall c :: c in r.value.text ==> Explained(c, seg.inner, reg))
  {
    if seg.Block? {
      PoolMembers(seg.inner, reg, o, at);
    }
  }

  lemma DrawingFront(segs: seq<Segment>)
    requires |segs| > 0
    ensures Drawing(segs) <==> (segs[0].Block? && |segs[0].inner| > 0) || Drawing(segs[1..])
  {
    if Drawing(segs[1..]) {
      var k :| 0 <= k < |segs| - 1 && segs[1..][k].Block? && |segs[1..][k].inner| > 0;
      assert segs[k + 1] == segs[1..][k];
    }
    if Drawing(segs) {
      var k :| 0 <= k < |segs| && segs[k].Block? && |segs[k].inner| > 0;
      if k > 0 {
        assert segs[1..][k - 1] == segs[k];
      }
    }
  }

  /** A filled first segment followed by a matching rest matches the whole. */
  lemma MatchesFront(segs: seq<Segment>, head: string, rest: string)
    requires |segs| > 0 && |head| == |Content(segs[0])|
    requires segs[0].Text? ==> head == segs[0].s
    requires Matches(rest, segs[1..])
    ensures Matches(head + rest, segs)
  {
    var v, sk := Verbatim(segs), Skeleton(segs);
    assert sk == Content(segs[0]) + Skeleton(segs[1..]);
    assert v == seq(|head|, _ => segs[0].Text?) + Verbatim(segs[1..]);
    forall k | 0 <= k < |head + rest| && v[k]
      ensures (head + rest)[k] == sk[k]
    {
      if k < |head| {
        assert segs[0].Text?;
      } else {
        assert Verbatim(segs[1..])[k - |head|];
      }
    }
  }

  /**
    The second phase after a first one produced p: the characters of p that
    are not in the template are read as a new template by the literal pass,
    and the password is p followed by what that pass yields.
   */
  function Finish(p: Produced, t: string, o: Oracle): (r: Result<Produced>)
    ensures r.Ok? ==> p.text <= r.value.text && r.value.reg == p.reg
    ensures r.Err? <==> AnyStarved(Slots(Without(p.text, t), p.reg, false), p.reg)
    ensures r.Ok? ==> Fits(r.value.text[|p.text|..], Slots(Without(p.text, t), p.reg, false), p.reg)
    ensures r.Ok? ==> r.value.at == p.at + Draws(Slots(Without(p.text, t), p.reg, false))
  {
    var rest :- LiteralPass(Without(p.text, t), p.reg, o, p.at, false);
    assert (p.text + rest.text)[|p.text|..] == rest.text;
    Ok(Produced(p.text + rest.text, rest.reg, rest.at))
  }

  /** check_template: the password a template describes. */
  function CheckTemplate(t: string, reg: Registry, o: Oracle, at: nat): (r: Result<Produced>)
    requires Valid(o)
    ensures r.Ok? ==> OnlyBaseChanged(reg, r.value.reg)
  {
    match FindRepeat(t, 0)
    case Some((i, j)) =>
      var p :- RepeatPhase(t, i, j, reg, o, at);
      Finish(p, t, o)
    case None =>
      if HasBlock(t) then
        var p :- Substitute(Parse(t), reg, o, at);
        Finish(p, t, o)
      else LiteralPass(t, reg, o, at, false)
  }

  /**
    A template with neither a placeholder nor a block is read by the literal
    pass alone, from its first character, so the slot reading of LiteralPass
    describes the whole password.
   */
  lemma LiteralTemplate(t: string, reg: Registry, o: Oracle, at: nat)
    requires Valid(o)
    requires FindRepeat(t, 0).None? && !HasBlock(t)
    ensures CheckTemplate(t, reg, o, at) == LiteralPass(t, reg, o, at, false)
  {
  }

  /** Nothing is left for the literal pass when every produced character occurs in the template. */
  lemma WithoutAll(s: string, t: string)
    requires forall c :: c in s ==> c in t
    ensures Without(s, t) == ""
  {
    if |Without(s, t)| > 0 {
      assert Without(s, t)[0] in Without(s, t);
    }
  }

  /**
    A placeholder without any custom-set block: the password is exactly the
    character before the first placeholder, repeated as often as it says.
    Everything else in the template, later placeholders included, is ignored,
    and neither the registry nor the draws are touched.
   */
  lemma RepeatCopies(t: string, reg: Registry, o: Oracle, at: nat)
    requires Valid(o)
    requires FindRepeat(t, 0).Some? && !HasBlock(t)
    ensures var (i, j) := FindRepeat(t, 0).value;
      CheckTemplate(t, reg, o, at) == Ok(Produced(Repeat(Previous(t, i), RepeatCount(t, i, j)), reg, at))
  {
    var (i, j) := FindRepeat(t, 0).value;
    var p := Produced(Repeat(Previous(t, i), RepeatCount(t, i, j)), reg, at);
    assert RepeatPhase(t, i, j, reg, o, at) == Ok(p);
    assert Previous(t, i) in t;
    WithoutAll(p.text, t);
    assert LiteralPass("", reg, o, at, false) == Ok(Produced("", reg, at));
    assert p.text + "" == p.text;
  }

  /**
    A placeholder with a custom-set block anywhere: the password starts with
    n characters drawn from the pool of all block contents joined, and it
    fails when n is positive and that pool is empty.
   */
  lemma RepeatDrawsFromBlocks(t: string, reg: Registry, o: Oracle, at: nat)
    requires Valid(o)
    requires FindRepeat(t, 0).Some? && HasBlock(t)
    ensures var (i, j) := FindRepeat(t, 0).value;
      var n := RepeatCount(t, i, j);
      var pool := Expand(Inners(Parse(t)), reg, o, at);
      var r := CheckTemplate(t, reg, o, at);
      && (n > 0 && |pool.text| == 0 ==> r.Err?)
      && (r.Ok? ==> n <= |r.value.text| && forall k :: 0 <= k < n ==> r.value.text[k] in pool.text)
  {
    var (i, j) := FindRepeat(t, 0).value;
    var rp := RepeatPhase(t, i, j, reg, o, at);
    ViaRepeatPhase(t, reg, o, at);
    if rp.Ok? {
      DrawnPrefix(rp.value, t, o, Expand(Inners(Parse(t)), reg, o, at).text);
    }
  }

  /** The literal pass keeps a prefix drawn from a pool in front of the password. */
  lemma DrawnPrefix(p: Produced, t: string, o: Oracle, pool: string)
    requires forall c :: c in p.text ==> c in pool
    ensures var r := Finish(p, t, o);
      r.Ok? ==> |p.text| <= |r.value.text| && forall k :: 0 <= k < |p.text| ==> r.value.text[k] in pool
  {
    var r := Finish(p, t, o);
    if r.Ok? {
      assert forall k :: 0 <= k < |p.text| ==> r.value.text[k] == p.text[k];
    }
  }

  /** With a placeholder, check_template is the repeat phase followed by the literal pass. */
  lemma ViaRepeatPhase(t: string, reg: Registry, o: Oracle, at: nat)
    requires Valid(o)
    requires FindRepeat(t, 0).Some?
    ensures var (i, j) := FindRepeat(t, 0).value;
      var rp := RepeatPhase(t, i, j, reg, o, at);
      CheckTemplate(t, reg, o, at) == if rp.Err? then Err(rp.failure) else Finish(rp.value, t, o)
  {
  }

  /**
    Blocks without a placeholder: the password starts with the template's
    skeleton (brackets dropped) in which every literal position is kept and
    every block position is filled, so it is at least two characters per
    block shorter than the template.
   */
  lemma BlocksSubstituted(t: string, reg: Registry, o: Oracle, at: nat)
    requires Valid(o)
    requires FindRepeat(t, 0).None? && HasBlock(t)
    ensures var segs := Parse(t);
      var r := CheckTemplate(t, reg, o, at);
      r.Ok? ==>
        && |Skeleton(segs)| == |t| - 2 * BlockCount(segs) <= |r.value.text|
        && forall k :: 0 <= k < |Skeleton(segs)| && Verbatim(segs)[k] ==> r.value.text[k] == Skeleton(segs)[k]
  {
    var segs := Parse(t);
    UnparseLength(segs);
    var sub := Substitute(segs, reg, o, at);
    ViaSubstitute(t, reg, o, at);
    if sub.Ok? {
      var r := Finish(sub.value, t, o);
      assert r.Ok? ==> sub.value.text <= r.value.text;
    }
  }

  /**
    Blocks without placeholder or exclusion: the registry is kept, and every
    character of the skeleton that stands for a block position comes from
    its own block (a character of that block or of one of its codes'
    alphabets), and so from the contents of all blocks.
   */
  lemma BlocksFromPools(t: string, reg: Registry, o: Oracle, at: nat)
    requires Valid(o)
    requires FindRepeat(t, 0).None? && HasBlock(t) && NoExclusions(Parse(t))
    ensures var segs := Parse(t);
      var r := CheckTemplate(t, reg, o, at);
      r.Ok? ==>
        && r.value.reg == reg
        && |Skeleton(segs)| <= |r.value.text|
        && FromOwnBlock(r.value.text, segs, reg)
        && forall k :: 0 <= k < |Skeleton(segs)| && !Verbatim(segs)[k] ==> Explained(r.value.text[k], Inners(segs), reg)
  {
    var segs := Parse(t);
    var sub := Substitute(segs, reg, o, at);
    var r := CheckTemplate(t, reg, o, at);
    ViaSubstitute(t, reg, o, at);
    if r.Ok? {
      assert sub.Ok? && r == Finish(sub.value, t, o);
      SubstituteFromBlocks(segs, reg, o, at);
      ExplainedPrefix(sub.value.text, r.value.text, segs, reg);
      OwnBlockPrefix(sub.value.text, r.value.text, segs, reg);
    }
  }

  /** Positions explained in a prefix stay explained in the whole. */
  lemma ExplainedPrefix(prefix: string, full: string, segs: seq<Segment>, reg: Registry)
    requires prefix <= full && |prefix| == |Skeleton(segs)|
    requires forall k :: 0 <= k < |prefix| && !Verbatim(segs)[k] ==> Explained(prefix[k], Inners(segs), reg)
    ensures forall k :: 0 <= k < |Skeleton(segs)| && !Verbatim(segs)[k] ==> Explained(full[k], Inners(segs), reg)
  {
  }

  /**
    Blocks without placeholder: the literal pass runs with the registry the
    last exclusion in the blocks rebuilt and from the draw after the blocks'
    draws, so an alphabet a block emptied stays empty for it.
   */
  lemma BlocksRegistryReachesLiteralPass(t: string, reg: Registry, o: Oracle, at: nat)
    requires Valid(o)
    requires FindRepeat(t, 0).None? && HasBlock(t)
    ensures var segs := Parse(t);
      var sub := Substitute(segs, reg, o, at);
      sub.Ok? ==>
        && CheckTemplate(t, reg, o, at) == Finish(sub.value, t, o)
        && sub.value.reg == Excluded(reg, LastExclusion(segs, o, at))
        && sub.value.at == at + BlockDraws(segs)
  {
    ViaSubstitute(t, reg, o, at);
  }

  /**
    A block "[l^,.;:]" empties code 'p' for everything after it: the
    substitution leaves a registry in which 'p' stands for nothing.
   */
  lemma ExclusionEmptiesPunct(reg: Registry, o: Oracle, at: nat)
    requires Valid(o)
    ensures var r := Substitute([Block("l^,.;:")], reg, o, at);
      r.Ok? ==> 'p' in r.value.reg && r.value.reg['p'] == ""
  {
    var inner := "l^,.;:";
    assert inner == "l" + ['^'] + ",.;:";
    SplitFirstUnique("l", '^', ",.;:");
    assert ExcludedBy(inner, o, at) == Some(",.;:");
    assert LastExclusion([Block(inner)], o, at) == Some(",.;:");
    PunctEmptied(reg);
  }

  /** Excluding all of ",.;:" leaves 'p', whose pristine set that is, empty. */
  lemma PunctEmptied(reg: Registry)
    ensures 'p' in Exclude(reg, ",.;:") && Exclude(reg, ",.;:")['p'] == ""
  {
    assert BaseSet('p') == ",.;:";
    WithoutAll(",.;:", ",.;:");
  }

  /** With blocks and no placeholder, check_template is the substitution followed by the literal pass. */
  lemma ViaSubstitute(t: string, reg: Registry, o: Oracle, at: nat)
    requires Valid(o)
    requires FindRepeat(t, 0).None? && HasBlock(t)
    ensures var sub := Substitute(Parse(t), reg, o, at);
      CheckTemplate(t, reg, o, at) == if sub.Err? then Err(sub.failure) else Finish(sub.value, t, o)
  {
  }

  /** Placeholders are matched as written: "u{4}d{3}\-l{2}" is four 'u' characters and nothing else. */
  lemma RepeatExample(reg: Registry, o: Oracle, at: nat)
    requires Valid(o)
    ensures CheckTemplate("u{4}d{3}\\-l{2}", reg, o, at) == Ok(Produced("uuuu", reg, at))
  {
    var t := "u{4}d{3}\\-l{2}";
    RepeatExampleScan();
    RepeatCopies(t, reg, o, at);
    assert Repeat('u', 4) == "uuuu";
  }

  /** How the template "u{4}d{3}\-l{2}" scans: its first placeholder is "{4}" after 'u', and it has no block. */
  lemma RepeatExampleScan()
    ensures var t := "u{4}d{3}\\-l{2}";
      && FindRepeat(t, 0) == Some((1, 3)) && RepeatAt(t, 1, 3)
      && !HasBlock(t) && RepeatCount(t, 1, 3) == 4 && Previous(t, 1) == 'u'
  {
    var t := "u{4}d{3}\\-l{2}";
    assert FindRepeat(t, 0) == Some((1, 3)) by {
      assert RepeatAt(t, 1, 3);
      assert FindRepeat(t, 0) == FindRepeat(t, 1);
    }
    assert !HasBlock(t) by {
      NoBrackets(t);
    }
    assert RepeatCount(t, 1, 3) == 4 by {
      assert t[2..3] == "4";
    }
  }

  /** Without '[' there is no block. */
  lemma NoBrackets(t: string)
    requires '[' !in t
    ensures !HasBlock(t)
  {
  }

  /** A placeholder at the very start repeats the template's last character: "{3}x" is "xxx". */
  lemma LeadingPlaceholder(reg: Registry, o: Oracle, at: nat)
    requires Valid(o)
    ensures CheckTemplate("{3}x", reg, o, at) == Ok(Produced("xxx", reg, at))
  {
    var t := "{3}x";
    assert RepeatAt(t, 0, 2);
    assert !HasBlock(t) by {
      NoBrackets(t);
    }
    RepeatCopies(t, reg, o, at);
    assert RepeatCount(t, 0, 2) == 3 by {
      assert t[1..2] == "3";
    }
    assert Repeat('x', 3) == "xxx";
  }

  /** An escaped character passes through literally: "u\-l" is an upper-case letter, '-', a lower-case letter. */
  lemma EscapeExample(reg: Registry, o: Oracle, at: nat)
    requires Valid(o)
    requires 'u' in reg && 'l' in reg && |reg['u']| > 0 && |reg['l']| > 0
    ensures var r := CheckTemplate("u\\-l", reg, o, at);
      && r.Ok? && |r.value.text| == 3
      && r.value.text[0] in reg['u'] && r.value.text[1] == '-' && r.value.text[2] in reg['l']
  {
    var t := "u\\-l";
    assert FindRepeat(t, 0).None? by {
      NoBraces(t);
    }
    assert !HasBlock(t) by {
      NoBrackets(t);
    }
    var slots := Slots(t, reg, false);
    assert t[0] == 'u' && t[1..] == "\\-l";
    assert "\\-l"[1..] == "-l" && "-l"[1..] == "l" && "l"[1..] == "";
    assert Slots("l", reg, false) == [Draw('l')];
    assert Slots("\\-l", reg, false) == [Literal('-'), Draw('l')];
    assert slots == [Draw('u'), Literal('-'), Draw('l')];
    var r := CheckTemplate(t, reg, o, at);
    assert r == LiteralPass(t, reg, o, at, false);
    StarvedFront(Draw('u'), [Literal('-'), Draw('l')], reg);
    StarvedFront(Literal('-'), [Draw('l')], reg);
    StarvedFront(Draw('l'), [], reg);
    assert r.Ok?;
    assert Allowed(slots[0], r.value.text[0], reg);
    assert Allowed(slots[1], r.value.text[1], reg);
    assert Allowed(slots[2], r.value.text[2], reg);
  }

  /** Without '{' there is no placeholder. */
  lemma NoBraces(t: string)
    requires '{' !in t
    ensures FindRepeat(t, 0).None?
  {
  }
}

=== FILE: template_scan.dfy ===
/**
  The two patterns a template is searched with. A custom-set block is a '['
  followed by the shortest run of characters other than a newline that is
  closed by ']'. A repeat placeholder is '{', one or more decimal digits and
  '}'. Both patterns are matched leftmost first; custom-set blocks are taken
  without overlap, the scan resuming after each ']'.
 */
module TemplateScan {
  import opened Outcomes

  /** A custom-set block opens at i and closes at j. */
  predicate BracketAt(t: string, i: nat, j: nat)
  {
    i < j < |t| && t[i] == '[' && t[j] == ']' &&
    forall m :: i < m < j ==> t[m] != ']' && t[m] != '\n'
  }

  /** The first position at or after k holding ']' or a newline, or |t| when there is none. */
  function Stop(t: string, k: nat): (m: nat)
    requires k <= |t|
    ensures k <= m <= |t|
    ensures m < |t| ==> t[m] == ']' || t[m] == '\n'
    ensures forall n :: k <= n < m ==> t[n] != ']' && t[n] != '\n'
    decreases |t| - k
  {
    if k == |t| || t[k] == ']' || t[k] == '\n' then k else Stop(t, k + 1)
  }

  /** The leftmost custom-set block that opens at or after `from`. */
  function FindBracket(t: string, from: nat): (r: Option<(nat, nat)>)
    requires from <= |t|
    ensures r.Some? ==> from <= r.value.0 && BracketAt(t, r.value.0, r.value.1)
    ensures r.Some? ==> forall i, j :: from <= i < r.value.0 ==> !BracketAt(t, i, j)
    ensures r.None? ==> forall i, j :: from <= i ==> !BracketAt(t, i, j)
    decreases |t| - from
  {
    if from == |t| then None
    else if t[from] == '[' && Stop(t, from + 1) < |t| && t[Stop(t, from + 1)] == ']' then
      Some((from, Stop(t, from + 1)))
    else
      NoBracketAt(t, from);
      FindBracket(t, from + 1)
  }

  /** When the first stop after a '[' is not a ']', no block opens there. */
  lemma NoBracketAt(t: string, i: nat)
    requires i < |t|
    requires !(t[i] == '[' && Stop(t, i + 1) < |t| && t[Stop(t, i + 1)] == ']')
    ensures forall j :: !BracketAt(t, i, j)
  {
    forall j: nat
      ensures !BracketAt(t, i, j)
    {
      if t[i] == '[' && i < j < |t| && t[j] == ']' {
        assert Stop(t, i + 1) <= j;
      }
    }
  }

  /** A template split into literal text and custom-set blocks. */
  datatype Segment = Text(s: string) | Block(inner: string)

  /** The template a list of segments was read from. */
  function Unparse(segs: seq<Segment>): string
  {
    if |segs| == 0 then ""
    else
      (match segs[0]
       case Text(s) => s
       case Block(inner) => "[" + inner + "]")
      + Unparse(segs[1..])
  }

  /**
    No custom-set block opens inside a text segment: reading the template
    from the start of each text segment, the pattern finds no match that
    begins within that segment.
   */
  ghost predicate NoBlockInText(segs: seq<Segment>)
  {
    |segs| == 0 ||
    ((segs[0].Text? ==> forall i: nat, j: nat :: i < |segs[0].s| ==> !BracketAt(Unparse(segs), i, j))
     && NoBlockInText(segs[1..]))
  }

  /**
    The segments of t, in order: every custom-set block and the text between
    them. Every match of the pattern is a block, since none opens in a text,
    and the blocks' inner texts are the matches re.findall returns.
   */
  function Parse(t: string): (segs: seq<Segment>)
    ensures Unparse(segs) == t
    ensures forall k :: 0 <= k < |segs| && segs[k].Block? ==> ']' !in segs[k].inner && '\n' !in segs[k].inner
    ensures NoBlockInText(segs)
    ensures Inners(segs) == Join(FindAll(t))
    decreases |t|
  {
    match FindBracket(t, 0)
    case None =>
      NothingFound(t);
      [Text(t)]
    case Some((i, j)) =>
      var rest := Parse(t[j + 1..]);
      BlockThenRest(t, i, j, rest);
      MatchThenRest(t, i, j, rest);
      BlockInnersClean(t, i, j, rest);
      [Text(t[..i]), Block(t[i + 1..j])] + rest
  }

  /** Without any match, the template is one text segment and findall is empty. */
  lemma NothingFound(t: string)
    requires FindBracket(t, 0).None?
    ensures NoBlockInText([Text(t)]) && Inners([Text(t)]) == Join(FindAll(t))
  {
    assert [Text(t)][1..] == [];
    assert Unparse([Text(t)]) == t;
    assert Inners([Text(t)]) == "";
    assert FindAll(t) == [];
  }

  /** The block's inner text, like those after it, holds neither ']' nor a newline. */
  lemma BlockInnersClean(t: string, i: nat, j: nat, rest: seq<Segment>)
    requires BracketAt(t, i, j)
    requires forall k :: 0 <= k < |rest| && rest[k].Block? ==> ']' !in rest[k].inner && '\n' !in rest[k].inner
    ensures var segs := [Text(t[..i]), Block(t[i + 1..j])] + rest;
      forall k :: 0 <= k < |segs| && segs[k].Block? ==> ']' !in segs[k].inner && '\n' !in segs[k].inner
  {
    BlockSplits(t, i, j);
    var segs := [Text(t[..i]), Block(t[i + 1..j])] + rest;
    assert forall k :: 2 <= k < |segs| ==> segs[k] == rest[k - 2];
  }

  /** The leftmost block, the text before it and the segments after it read t with no block missed. */
  lemma BlockThenRest(t: string, i: nat, j: nat, rest: seq<Segment>)
    requires FindBracket(t, 0) == Some((i, j))
    requires Unparse(rest) == t[j + 1..] && NoBlockInText(rest)
    ensures var segs := [Text(t[..i]), Block(t[i + 1..j])] + rest;
      Unparse(segs) == t && NoBlockInText(segs)
  {
    BlockSplits(t, i, j);
    UnparseBlock(t[..i], t[i + 1..j], rest);
    NoBlockFront(t[..i], t[i + 1..j], rest);
  }

  lemma UnparseBlock(before: string, inner: string, rest: seq<Segment>)
    ensures Unparse([Text(before), Block(inner)] + rest) == before + "[" + inner + "]" + Unparse(rest)
  {
    var segs := [Text(before), Block(inner)] + rest;
    assert segs[1..][1..] == rest;
  }

  lemma NoBlockFront(before: string, inner: string, rest: seq<Segment>)
    requires var segs := [Text(before), Block(inner)] + rest;
      forall i: nat, j: nat :: i < |before| ==> !BracketAt(Unparse(segs), i, j)
    requires NoBlockInText(rest)
    ensures NoBlockInText([Text(before), Block(inner)] + rest)
  {
    var segs := [Text(before), Block(inner)] + rest;
    assert segs[1..][1..] == rest;
  }

  /** The leftmost match is the first inner text, and the rest are matched after it. */
  lemma MatchThenRest(t: string, i: nat, j: nat, rest: seq<Segment>)
    requires FindBracket(t, 0) == Some((i, j))
    requires Inners(rest) == Join(FindAll(t[j + 1..]))
    ensures Inners([Text(t[..i]), Block(t[i + 1..j])] + rest) == Join(FindAll(t))
  {
    InnersOfBlock(t[..i], t[i + 1..j], rest);
    FindAllFront(t, i, j);
    JoinFront(t[i + 1..j], FindAll(t[j + 1..]));
  }

  lemma FindAllFront(t: string, i: nat, j: nat)
    requires FindBracket(t, 0) == Some((i, j))
    ensures j < |t| && FindAll(t) == [t[i + 1..j]] + FindAll(t[j + 1..])
  {
    var found := FindBracket(t, 0);
    assert found.value.0 == i && found.value.1 == j;
  }

  /** A block cuts the template into the text before it, its inner text and the text after it. */
  lemma BlockSplits(t: string, i: nat, j: nat)
    requires BracketAt(t, i, j)
    ensures t == t[..i] + "[" + t[i + 1..j] + "]" + t[j + 1..]
    ensures ']' !in t[i + 1..j] && '\n' !in t[i + 1..j]
  {
  }

  /** The inner texts of the blocks, joined: ''.join of all the matches. */
  function Inners(segs: seq<Segment>): (r: string)
    ensures forall c :: c in r <==> exists k :: 0 <= k < |segs| && segs[k].Block? && c in segs[k].inner
  {
    if |segs| == 0 then ""
    else
      assert forall k :: 0 < k < |segs| ==> segs[k] == segs[1..][k - 1];
      (if segs[0].Block? then segs[0].inner else "") + Inners(segs[1..])
  }

  /** re.findall of the custom-set pattern: the inner text of each match, the search resuming after it. */
  function FindAll(t: string): seq<string>
    decreases |t|
  {
    match FindBracket(t, 0)
    case None => []
    case Some((i, j)) =>
      [t[i + 1..j]] + FindAll(t[j + 1..])
  }

  /** The strings of ms, concatenated in order. */
  function Join(ms: seq<string>): string
  {
    if |ms| == 0 then "" else ms[0] + Join(ms[1..])
  }

  lemma InnersOfBlock(before: string, inner: string, rest: seq<Segment>)
    ensures Inners([Text(before), Block(inner)] + rest) == inner + Inners(rest)
  {
    var segs := [Text(before), Block(inner)] + rest;
    assert segs[1..][1..] == rest;
  }

  lemma JoinFront(m: string, ms: seq<string>)
    ensures Join([m] + ms) == m + Join(ms)
  {
    assert ([m] + ms)[1..] == ms;
  }

  /** The number of custom-set blocks. */
  function BlockCount(segs: seq<Segment>): nat
  {
    if |segs| == 0 then 0 else (if segs[0].Block? then 1 else 0) + BlockCount(segs[1..])
  }

  /** Whether the custom-set pattern finds anything in t (an empty block "[]" counts). */
  function HasBlock(t: string): (b: bool)
    ensures b <==> exists i: nat, j: nat :: BracketAt(t, i, j)
  {
    var r := FindBracket(t, 0);
    if r.Some? then assert BracketAt(t, r.value.0, r.value.1); true else false
  }

  /** Parsing finds a block exactly when the pattern does. */
  lemma ParseFindsBlocks(t: string)
    ensures HasBlock(t) <==> BlockCount(Parse(t)) > 0
    ensures !HasBlock(t) ==> Parse(t) == [Text(t)]
  {
    if HasBlock(t) {
      var (i, j) := FindBracket(t, 0).value;
      assert Parse(t)[1].Block?;
      BlockCountPositive(Parse(t), 1);
    }
  }

  lemma {:induction false} BlockCountPositive(segs: seq<Segment>, k: nat)
    requires k < |segs| && segs[k].Block?
    ensures BlockCount(segs) > 0
  {
    if k > 0 {
      BlockCountPositive(segs[1..], k - 1);
    }
  }

  /** Each block stands for its inner text and two brackets. */
  lemma {:induction false} UnparseLength(segs: seq<Segment>)
    ensures |Unparse(segs)| == |Skeleton(segs)| + 2 * BlockCount(segs)
  {
    if |segs| > 0 {
      UnparseLength(segs[1..]);
    }
  }

  /** What a segment contributes to the skeleton: its text, or a block's inner text. */
  function Content(seg: Segment): string
  {
    match seg
    case Text(s) => s
    case Block(inner) => inner
  }

  /** The template with every block replaced by its inner text (brackets dropped). */
  function Skeleton(segs: seq<Segment>): string
  {
    if |segs| == 0 then "" else Content(segs[0]) + Skeleton(segs[1..])
  }

  /** Which positions of the skeleton come from literal text rather than from a block. */
  function Verbatim(segs: seq<Segment>): (v: seq<bool>)
    ensures |v| == |Skeleton(segs)|
  {
    if |segs| == 0 then [] else seq(|Content(segs[0])|, _ => segs[0].Text?) + Verbatim(segs[1..])
  }

  /** An ASCII decimal digit; Python's \d also accepts other Unicode digits, which are not modelled. */
  predicate IsDigit(c: char)
  {
    '0' <= c <= '9'
  }

  /** A repeat placeholder opens at i and closes at j. */
  predicate RepeatAt(t: string, i: nat, j: nat)
  {
    i + 1 < j < |t| && t[i] == '{' && t[j] == '}' &&
    forall m :: i < m < j ==> IsDigit(t[m])
  }

  /** The end of the run of digits starting at k. */
  function DigitsEnd(t: string, k: nat): (m: nat)
    requires k <= |t|
    ensures k <= m <= |t|
    ensures m < |t| ==> !IsDigit(t[m])
    ensures forall n :: k <= n < m ==> IsDigit(t[n])
    decreases |t| - k
  {
    if k == |t| || !IsDigit(t[k]) then k else DigitsEnd(t, k + 1)
  }

  /** The leftmost repeat placeholder at or after `from`. */
  function FindRepeat(t: string, from: nat): (r: Option<(nat, nat)>)
    requires from <= |t|
    ensures r.Some? ==> from <= r.value.0 && RepeatAt(t, r.value.0, r.value.1)
    ensures r.Some? ==> forall i, j :: from <= i < r.value.0 ==> !RepeatAt(t, i, j)
    ensures r.None? ==> forall i, j :: from <= i ==> !RepeatAt(t, i, j)
    decreases |t| - from
  {
    if from == |t| then None
    else if t[from] == '{' && DigitsEnd(t, from + 1) > from + 1
            && DigitsEnd(t, from + 1) < |t| && t[DigitsEnd(t, from + 1)] == '}' then
      Some((from, DigitsEnd(t, from + 1)))
    else
      NoRepeatAt(t, from);
      FindRepeat(t, from + 1)
  }

  lemma NoRepeatAt(t: string, i: nat)
    requires i < |t|
    requires !(t[i] == '{' && DigitsEnd(t, i + 1) > i + 1 && DigitsEnd(t, i + 1) < |t| && t[DigitsEnd(t, i + 1)] == '}')
    ensures forall j :: !RepeatAt(t, i, j)
  {
    forall j: nat
      ensures !RepeatAt(t, i, j)
    {
      var e := DigitsEnd(t, i + 1);
      if t[i] == '{' && i + 1 < j < |t| && t[j] == '}' {
        assert (forall m :: i < m < j ==> IsDigit(t[m])) ==> e == j;
      }
    }
  }

  /** The value of a string of ASCII digits, as int() reads it. */
  function DecimalValue(ds: string): (v: nat)
    requires forall k :: 0 <= k < |ds| ==> IsDigit(ds[k])
    ensures v == 0 <==> forall k :: 0 <= k < |ds| ==> ds[k] == '0'
  {
    if |ds| == 0 then 0
    else
      var init := ds[..|ds| - 1];
      assert forall k :: 0 <= k < |ds| - 1 ==> init[k] == ds[k];
      DecimalValue(init) * 10 + DigitValue(ds[|ds| - 1])
  }

  function DigitValue(c: char): nat
    requires IsDigit(c)
  {
    c as int - '0' as int
  }

  /** The decimal numeral of n, without leading zeros ("0" for zero). */
  function Numeral(n: nat): (ds: string)
    ensures |ds| > 0 && forall k :: 0 <= k < |ds| ==> IsDigit(ds[k])
  {
    if n < 10 then [('0' as int + n) as char]
    else Numeral(n / 10) + [('0' as int + n % 10) as char]
  }

  /** int() inverts the decimal numeral. */
  lemma {:induction false} DecimalRoundTrip(n: nat)
    ensures DecimalValue(Numeral(n)) == n
  {
    if n >= 10 {
      DecimalRoundTrip(n / 10);
      var ds := Numeral(n);
      assert ds[..|ds| - 1] == Numeral(n / 10);
    }
  }

  /** Leading zeros do not change the count: {007} repeats seven times. */
  lemma {:induction false} LeadingZero(ds: string)
    requires forall k :: 0 <= k < |ds| ==> IsDigit(ds[k])
    ensures DecimalValue("0" + ds) == DecimalValue(ds)
  {
    if |ds| > 0 {
      var zs := "0" + ds;
      assert zs[..|zs| - 1] == "0" + ds[..|ds| - 1];
      LeadingZero(ds[..|ds| - 1]);
    }
  }
}
